=== FILE: README.md ===
# Game Launcher Cloud editor plugin — client decision logic in Dafny

This project models the part of the Game Launcher Cloud Unreal Engine editor
plugin that makes decisions: the HTTP client `FGLCApiClient` and the
non-widget state of the editor window `SGLCManagerWindow`.

- **Client** (`ApiClient.dfy`, with `Json.dfy`, `Envelope.dfy`,
  `Records.dfy`, `Decimal.dfy`). The client state is the base URL, the bearer
  token and whether an upload PUT is in flight. Every operation is split into
  a *begin* function and a *complete* function. The begin function makes the
  local "Not authenticated" decision, or creates the upload handle. The
  complete function is a pure classification of a completion. A completion
  is a value: transport flag, optional response (status code and parsed
  body), and request status. The result is the callback's
  `(success, message, payload)` plus the updated client. The response
  envelope `{isSuccess, result, errorMessages}` is validated by
  `ExtractApiResult`. Its code asks for every field under the lower-camel
  spelling first, then the upper-camel one; the model compares field names
  exactly (see "Left out").
- **Window** (`ManagerWindow.dfy`). The handlers for login, logout, loading
  apps, choosing an app and Build & Upload are transitions on an immutable
  window record. `Construct` resets the busy flags and re-reads the saved
  configuration, a key-value map with `authToken`, `userEmail` and `apiUrl`.
  Each login and logout saves the configuration and rebuilds the window from
  it. User input reaches its handler only when the widget is on the shown tab
  (login tab before authentication, build tab after) and, for a button,
  its enable condition holds, since disabled buttons take no clicks. An event-sequence
  runner proves one invariant for every reachable
  window: the app names mirror the app list, a non-empty list keeps its index
  in range, and the client agrees with the window's token.

Notes on behaviour the code shows:

- List-apps, quota check, start-upload and build-status never look at the
  HTTP status code. A response body that validates succeeds on any code.
- Login and cancel-build do look at the code. On a non-200 their code asks
  only for the field spelled `errorMessages`, never `ErrorMessages`.
- File-ready never reads the body.
- The Build & Upload button's enable condition has no upper bound on the
  selected index. The invariant shows that this does not matter: in a
  reachable window, an enabled button is never refused.

## Model

| member | source | states |
|---|---|---|
| Json.FirstOf | Plugins/GameLauncherCloud/Source/GameLauncherCloudEditor/Private/GLCApiClient.cpp:42-61 | a multi-key lookup returns a value exactly when some candidate key holds the right kind, and that value comes from the first such key; every earlier key is absent or of the wrong kind |
| Envelope.KeyPriority | Plugins/GameLauncherCloud/Source/GameLauncherCloudEditor/Private/GLCApiClient.cpp:42-61 | for any pair of spellings, the ordered lookup equals "lower-camel if it fits, else upper-camel if it fits, else nothing" |
| Envelope.ExtractApiResult | Plugins/GameLauncherCloud/Source/GameLauncherCloudEditor/Private/GLCApiClient.cpp:34-72 | succeeds iff the body parsed, its preferred success flag is boolean true and a result object is present; a success returns the preferred result object; an unparsed body fails with "Invalid JSON response"; any other failure gives the first entry of the preferred error array, or "Request failed" when there is no such array or it is empty |
| Envelope.LowerFlagShadowsUpper | Plugins/GameLauncherCloud/Source/GameLauncherCloudEditor/Private/GLCApiClient.cpp:43-46 | `"isSuccess": false` beats `"IsSuccess": true`, even when a result object is present |
| Envelope.TrueFlagWithoutResultFails | Plugins/GameLauncherCloud/Source/GameLauncherCloudEditor/Private/GLCApiClient.cpp:46-57 | a true flag with no result object under either spelling is a failure |
| Envelope.NoTrueFlagFails | Plugins/GameLauncherCloud/Source/GameLauncherCloudEditor/Private/GLCApiClient.cpp:43-57 | a body with no boolean true under either flag spelling never validates |
| Envelope.EmptyLowerErrorsShadowUpper | Plugins/GameLauncherCloud/Source/GameLauncherCloudEditor/Private/GLCApiClient.cpp:59-69 | a present but empty `errorMessages` gives "Request failed" even when `ErrorMessages` is non-empty |
| Envelope.UpperCamelEnvelopeAccepted | Plugins/GameLauncherCloud/Source/GameLauncherCloudEditor/Private/GLCApiClient.cpp:44-55 | an envelope written only in upper-camel validates and yields its result |
| Decimal.IntToDecimalRoundTrip | Plugins/GameLauncherCloud/Source/GameLauncherCloudEditor/Private/GLCApiClient.cpp:117 | the `%d` rendering of any integer reads back as that integer |
| Records.LoginHead | Plugins/GameLauncherCloud/Source/GameLauncherCloudEditor/Private/GLCApiClient.cpp:148-153 | id, username, e-mail and token are each the result's string field of that name, empty when it is absent or not a string; so the token is non-empty iff the result has a non-empty string `token`; roles and plan are still empty at the token check |
| Records.RolesOf | Plugins/GameLauncherCloud/Source/GameLauncherCloudEditor/Private/GLCApiClient.cpp:160-168 | one role per entry of the `roles` array, in order, each read as a string; no array gives no roles |
| Records.PlanNameOf | Plugins/GameLauncherCloud/Source/GameLauncherCloudEditor/Private/GLCApiClient.cpp:170-179 | the plan name is `subscription.plan.name` when the result holds an object `subscription` holding an object `plan` holding a string `name`, and empty otherwise |
| Records.LoginFields | Plugins/GameLauncherCloud/Source/GameLauncherCloudEditor/Private/GLCApiClient.cpp:147-179 | the full login record has the identity fields of `LoginHead`, the roles of `RolesOf` and the plan name of `PlanNameOf` |
| Records.AppInfoOfAsWritten | Plugins/GameLauncherCloud/Source/GameLauncherCloudEditor/Private/GLCApiClient.cpp:236-241 | as written: each field is the entry's field of that name and kind; an absent string is empty, while an absent `id`, `buildCount` or `isOwnedByUser` keeps the uninitialised storage |
| Records.AppInfoAsWrittenReadsStorage | Plugins/GameLauncherCloud/Source/GameLauncherCloudEditor/Private/GLCApiClient.cpp:236-237 | an entry without `id` reports different ids for different prior storage |
| Records.AppInfoFromEntryAlone | Plugins/GameLauncherCloud/Source/GameLauncherCloudEditor/Private/GLCApiClient.cpp:233-242 | corrected: id and build count are the entry's numbers or 0, ownership holds iff the entry has `"isOwnedByUser": true`; with every scalar present this equals the as-written reading for any storage |
| Records.ParseApps | Plugins/GameLauncherCloud/Source/GameLauncherCloudEditor/Private/GLCApiClient.cpp:228-245 | one app per object entry of the array, so the count is the number of objects; the object at position i becomes the app at position "objects before i", read by the corrected entry reader; non-object entries are skipped; with only objects, same length and order |
| Records.CanUploadFieldsAsWritten | Plugins/GameLauncherCloud/Source/GameLauncherCloudEditor/Private/GLCApiClient.cpp:294-299 | as written: a present boolean `canUpload` is copied and an absent one leaves the uninitialised storage; each size and limit is the result's number or the storage; the plan name is the result's string or empty |
| Records.StartUploadFieldsAsWritten | Plugins/GameLauncherCloud/Source/GameLauncherCloudEditor/Private/GLCApiClient.cpp:363-366 | as written: URL, key and final URL are the result's strings or empty; an absent `appBuildId` keeps the storage |
| Records.BuildStatusFieldsAsWritten | Plugins/GameLauncherCloud/Source/GameLauncherCloudEditor/Private/GLCApiClient.cpp:519-527 | as written: status, file name, notes and error message are the result's strings or empty; each absent integer (`appBuildId`, `appId`, sizes, `stageProgress`) keeps the storage |
| ApiClient.NewClient | Plugins/GameLauncherCloud/Source/GameLauncherCloudEditor/Private/GLCApiClient.cpp:10-14 | a new client holds the given base URL and token and has no upload in flight |
| ApiClient.SetAuthToken | Plugins/GameLauncherCloud/Source/GameLauncherCloudEditor/Private/GLCApiClient.cpp:16-19 | the token becomes the given one; the URL and the upload handle are unchanged |
| ApiClient.ServerMessageOr | Plugins/GameLauncherCloud/Source/GameLauncherCloudEditor/Private/GLCApiClient.cpp:116-126 | the fallback text is replaced only by the first entry of a non-empty lower-camel `errorMessages` array |
| ApiClient.EnvelopeOf | Plugins/GameLauncherCloud/Source/GameLauncherCloudEditor/Private/GLCApiClient.cpp:214-226 | no response or a transport failure gives "Connection error"; otherwise the envelope decides |
| ApiClient.BeginAuthenticated | Plugins/GameLauncherCloud/Source/GameLauncherCloudEditor/Private/GLCApiClient.cpp:197-208 | the callback fires at once with (false, "Not authenticated") iff the token is empty; otherwise a request goes out carrying the token |
| ApiClient.LoginBegin | Plugins/GameLauncherCloud/Source/GameLauncherCloudEditor/Private/GLCApiClient.cpp:74-97 | login always sends its request, with no bearer token |
| ApiClient.UploadFileBegin | Plugins/GameLauncherCloud/Source/GameLauncherCloudEditor/Private/GLCApiClient.cpp:381-405 | an unreadable file reports ("Failed to read file", 0.0) with the client untouched; otherwise the PUT is sent and becomes the active upload; there is no token check |
| ApiClient.UnauthenticatedSendsNothing | Plugins/GameLauncherCloud/Source/GameLauncherCloudEditor/Private/GLCApiClient.cpp:195-547 | with an empty token, list-apps, can-upload, start-upload, file-ready, status and cancel-build all answer (false, "Not authenticated", empty payload) and send nothing; login and upload still send |
| ApiClient.LoginComplete | Plugins/GameLauncherCloud/Source/GameLauncherCloudEditor/Private/GLCApiClient.cpp:97-190 | a success needs a 200 with a validating envelope, says "Login successful", carries the full login record of the result and a non-empty token, and the client's token becomes it; such a response without a token fails with "Login response missing token" carrying the identity fields read so far; a 200 whose envelope fails reports the envelope's error; every other failure carries the empty record; every failure leaves the client unchanged |
| ApiClient.LoginSuccessIff | Plugins/GameLauncherCloud/Source/GameLauncherCloudEditor/Private/GLCApiClient.cpp:101-183 | login succeeds iff a 200 arrived, the envelope validates and the result's token string is non-empty; the stored token is that string |
| ApiClient.LoginErrorMessages | Plugins/GameLauncherCloud/Source/GameLauncherCloudEditor/Private/GLCApiClient.cpp:101-131 | a transport failure gives "Connection error"; a non-200 fails with "HTTP n", or with the first lower-camel error entry when there is one |
| ApiClient.LoginNon200IgnoresUpperCamelErrors | Plugins/GameLauncherCloud/Source/GameLauncherCloudEditor/Private/GLCApiClient.cpp:114-126 | a non-200 login whose body has only `ErrorMessages` reports "HTTP n" |
| ApiClient.LoginHttpMessageCarriesCode | Plugins/GameLauncherCloud/Source/GameLauncherCloudEditor/Private/GLCApiClient.cpp:117 | two non-200 logins with unparsed bodies report the same message only for the same status code |
| ApiClient.GetAppListComplete | Plugins/GameLauncherCloud/Source/GameLauncherCloudEditor/Private/GLCApiClient.cpp:210-255 | succeeds iff connected and the envelope validates; the apps are those of the result's `apps` array, read by the corrected entry reader (see the Findings row for lines 236-241); a failure carries no apps and the envelope's or connection's message |
| ApiClient.CanUploadCompleteAsWritten | Plugins/GameLauncherCloud/Source/GameLauncherCloudEditor/Private/GLCApiClient.cpp:278-311 | as written: succeeds iff connected and the envelope validates; a success carries the as-written quota record over the storage; a failure hands back the storage itself with the error message |
| ApiClient.CanUploadComplete | Plugins/GameLauncherCloud/Source/GameLauncherCloudEditor/Private/GLCApiClient.cpp:260-311 | corrected: the same decision with the record value-initialised; a success carries the quota record of the result, a failure the empty record; an allowed upload is never reported on a failed call |
| ApiClient.CanUploadAsWrittenReadsStorage | Plugins/GameLauncherCloud/Source/GameLauncherCloudEditor/Private/GLCApiClient.cpp:280-309 | as written, a failed call can report `CanUpload` true, and a validated empty result reports different decisions for different storage |
| ApiClient.CanUploadGrantedOnlyExplicitly | Plugins/GameLauncherCloud/Source/GameLauncherCloudEditor/Private/GLCApiClient.cpp:260-309 | corrected: an upload is reported allowed iff a validated result holds `"canUpload": true`; with every scalar present the corrected and as-written outcomes agree whatever the storage |
| ApiClient.StartUploadCompleteAsWritten | Plugins/GameLauncherCloud/Source/GameLauncherCloudEditor/Private/GLCApiClient.cpp:345-376 | as written: succeeds iff connected and the envelope validates; a success carries the as-written ticket over the storage; a failure hands back the storage itself with the error message |
| ApiClient.StartUploadComplete | Plugins/GameLauncherCloud/Source/GameLauncherCloudEditor/Private/GLCApiClient.cpp:316-376 | corrected: the same decision with the record value-initialised; a success carries the ticket read from the result, a failure the empty ticket and the error message |
| ApiClient.StartUploadAsWrittenReadsStorage | Plugins/GameLauncherCloud/Source/GameLauncherCloudEditor/Private/GLCApiClient.cpp:347-374 | as written, both a failed start and a validated result without `appBuildId` report the storage's build id |
| ApiClient.StartUploadFromResponseAlone | Plugins/GameLauncherCloud/Source/GameLauncherCloudEditor/Private/GLCApiClient.cpp:347-374 | corrected: the build id is the validated result's `appBuildId` or 0; with it present the corrected and as-written outcomes agree whatever the storage |
| ApiClient.GetBuildStatusCompleteAsWritten | Plugins/GameLauncherCloud/Source/GameLauncherCloudEditor/Private/GLCApiClient.cpp:501-536 | as written: succeeds iff connected and the envelope validates; a success carries the as-written build record over the storage; a failure hands back the storage itself with the error message |
| ApiClient.GetBuildStatusComplete | Plugins/GameLauncherCloud/Source/GameLauncherCloudEditor/Private/GLCApiClient.cpp:486-536 | corrected: the same decision with the record value-initialised; a success carries the build record read from the result, a failure the empty record and the error message |
| ApiClient.BuildStatusAsWrittenReadsStorage | Plugins/GameLauncherCloud/Source/GameLauncherCloudEditor/Private/GLCApiClient.cpp:503-534 | as written, both a failed poll and a validated result without `stageProgress` report the storage's progress |
| ApiClient.BuildStatusFromResponseAlone | Plugins/GameLauncherCloud/Source/GameLauncherCloudEditor/Private/GLCApiClient.cpp:503-534 | corrected: a failed poll reports progress 0 and a success the result's `stageProgress` or 0; with every integer present the corrected and as-written outcomes agree whatever the storage |
| ApiClient.EnvelopeOperationsIgnoreStatusCode | Plugins/GameLauncherCloud/Source/GameLauncherCloudEditor/Private/GLCApiClient.cpp:221-226 | with a validating body, the four envelope operations succeed whatever the status code |
| ApiClient.UploadFileComplete | Plugins/GameLauncherCloud/Source/GameLauncherCloudEditor/Private/GLCApiClient.cpp:414-438 | the active upload is cleared on every completion; success holds exactly when the completed signal is reported |
| ApiClient.UploadClassification | Plugins/GameLauncherCloud/Source/GameLauncherCloudEditor/Private/GLCApiClient.cpp:419-437 | cancelled (-1.0) iff the transport failed with no response or with status Failed; completed (1.0) iff a 200 arrived over a working transport; otherwise "Upload failed: HTTP n" (0.0), with n = 0 when there is no response |
| ApiClient.FailedTransportWithResponseIsNotCancellation | Plugins/GameLauncherCloud/Source/GameLauncherCloudEditor/Private/GLCApiClient.cpp:421-434 | a transport failure that still delivered a response, with a status other than Failed, is reported as a failure carrying that code |
| ApiClient.NotifyFileReadyComplete | Plugins/GameLauncherCloud/Source/GameLauncherCloudEditor/Private/GLCApiClient.cpp:469-481 | succeeds iff a 200 arrived over a working transport, saying "File ready notification sent"; otherwise "Request failed: HTTP n", with n = 0 without a response |
| ApiClient.NotifyFileReadyIgnoresBody | Plugins/GameLauncherCloud/Source/GameLauncherCloudEditor/Private/GLCApiClient.cpp:471-480 | completions that differ only in body give the same outcome |
| ApiClient.CancelBuildComplete | Plugins/GameLauncherCloud/Source/GameLauncherCloudEditor/Private/GLCApiClient.cpp:559-594 | succeeds iff a 200 arrived, saying "Build cancelled successfully"; no response gives "Connection error"; another code gives "Failed to cancel build: HTTP n" unless the lower-camel error array names the error |
| ApiClient.CancelBuildMessageCarriesCode | Plugins/GameLauncherCloud/Source/GameLauncherCloudEditor/Private/GLCApiClient.cpp:578 | two non-200 cancellations with unparsed bodies fail, and report the same message only for the same status code |
| ApiClient.CancelBuildIgnoresBodyOn200 | Plugins/GameLauncherCloud/Source/GameLauncherCloudEditor/Private/GLCApiClient.cpp:571-575 | a 200 cancels the build whatever the body, with the same message as a 200 without a body |
| ApiClient.CancelActiveUpload | Plugins/GameLauncherCloud/Source/GameLauncherCloudEditor/Private/GLCApiClient.cpp:599-612 | afterwards no upload is active; an abort is issued iff one was; token and URL are unchanged |
| ApiClient.CancelActiveUploadIdempotent | Plugins/GameLauncherCloud/Source/GameLauncherCloudEditor/Private/GLCApiClient.cpp:599-612 | cancelling twice equals cancelling once, and the second call issues nothing; with nothing active it is a no-op |
| ApiClient.UploadHandleLifecycle | Plugins/GameLauncherCloud/Source/GameLauncherCloudEditor/Private/GLCApiClient.cpp:397-417 | a readable file's PUT makes the handle active; its completion or a cancellation clears it; a read failure never creates it |
| ApiClient.TokenChangesOnlyOnLogin | Plugins/GameLauncherCloud/Source/GameLauncherCloudEditor/Private/GLCApiClient.cpp:181 | upload completion and cancellation keep the token; login changes it only on success, and only to a non-empty token |
| ManagerWindow.SaveConfig | Plugins/GameLauncherCloud/Source/GameLauncherCloudEditor/Private/GLCManagerWindow.cpp:463-477 | the file holds exactly the three keys, with the window's token, e-mail and URL |
| ManagerWindow.LoadConfig | Plugins/GameLauncherCloud/Source/GameLauncherCloudEditor/Private/GLCManagerWindow.cpp:479-501 | saved values override the three fields, missing ones keep theirs; the window becomes authenticated when the file was read and the token is non-empty; nothing else changes |
| ManagerWindow.Construct | Plugins/GameLauncherCloud/Source/GameLauncherCloudEditor/Private/GLCManagerWindow.cpp:23-39 | busy flags off; progress, index and build id zero; URL is the saved one or the default; authenticated iff the file was read and the token is non-empty; the new client carries that URL and token with no upload; input, app list and status line are untouched |
| ManagerWindow.ConstructAfterSaveRestores | Plugins/GameLauncherCloud/Source/GameLauncherCloudEditor/Private/GLCManagerWindow.cpp:463-498 | rebuilding from a just-saved file restores token, e-mail and URL, and authenticates exactly when the token is non-empty |
| ManagerWindow.ConstructIdempotent | Plugins/GameLauncherCloud/Source/GameLauncherCloudEditor/Private/GLCManagerWindow.cpp:23-39 | rebuilding twice from the same file equals rebuilding once |
| ManagerWindow.LoginClicked | Plugins/GameLauncherCloud/Source/GameLauncherCloudEditor/Private/GLCManagerWindow.cpp:321-334 | an empty API key sets "Please enter an API Key" as an error and sends nothing; otherwise the window is marked logging in and a login request goes out |
| ManagerWindow.LoginCompleted | Plugins/GameLauncherCloud/Source/GameLauncherCloudEditor/Private/GLCManagerWindow.cpp:334-357 | the logging-in flag is always cleared; on failure only the status line changes, to the client's message as an error; on success the window and its client hold the response token with the same server URL, the file saves token, e-mail and URL, the rebuilt window is authenticated and idle (no busy flag, zero progress and build id) with "Login successful!" as a success, and the key input, app list, names and chosen app are kept while the index returns to 0 |
| ManagerWindow.EnabledLoginSendsOnce | Plugins/GameLauncherCloud/Source/GameLauncherCloudEditor/Private/GLCManagerWindow.cpp:150 | an enabled login button sends one login request and the window it leaves has the button disabled; an empty key input means the button is disabled and a click sends nothing |
| ManagerWindow.PendingLoginIgnoresClicks | Plugins/GameLauncherCloud/Source/GameLauncherCloudEditor/Private/GLCManagerWindow.cpp:150 | while a login is outstanding, or while the build tab is shown, a login click changes nothing; an enabled login click on the login tab marks the window logging in |
| ManagerWindow.Logout | Plugins/GameLauncherCloud/Source/GameLauncherCloudEditor/Private/GLCManagerWindow.cpp:362-378 | token, e-mail, key input, app list, names and status text are cleared; the file holds exactly the empty token, the empty e-mail and the unchanged URL; the rebuilt window is not authenticated, idle, and its client has the same URL and no token; the status kind and the chosen app are kept, and the index returns to 0 |
| ManagerWindow.Handles | Plugins/GameLauncherCloud/Source/GameLauncherCloudEditor/Private/GLCManagerWindow.cpp:393-398 | one name handle per app, same order, carrying its name; handle i is numbered next + i, so the handles are strictly increasing and pairwise distinct |
| ManagerWindow.AppsListed | Plugins/GameLauncherCloud/Source/GameLauncherCloudEditor/Private/GLCManagerWindow.cpp:393-411 | the list becomes the result with one fresh handle per app numbered from the window's counter, which advances past them; a non-empty list selects its first handle and reports "Loaded n app(s)" as a success, an empty one keeps the selection and warns that no apps were found; identity, client, key input, busy flags and upload state are unchanged |
| ManagerWindow.LoadAppsCompleted | Plugins/GameLauncherCloud/Source/GameLauncherCloudEditor/Private/GLCManagerWindow.cpp:386-423 | the loading flag is cleared and identity, client, key input, other busy flags and upload state are kept; a success shows the list as described for `AppsListed`; a failure changes only the status line, to the client's message as an error |
| ManagerWindow.LoadedAppsSelectable | Plugins/GameLauncherCloud/Source/GameLauncherCloudEditor/Private/GLCManagerWindow.cpp:397-460 | after a successful load, choosing the i-th option moves the index to i, because the fresh handles are pairwise distinct |
| ManagerWindow.LoadAppsClicked | Plugins/GameLauncherCloud/Source/GameLauncherCloudEditor/Private/GLCManagerWindow.cpp:380-386 | a request carrying the token goes out iff the client has a token, and then only the loading flag and the "Loading apps..." info line change; otherwise the "Not authenticated" callback runs at once and only the status line changes, to that error, with the loading flag off |
| ManagerWindow.FirstIndex | Plugins/GameLauncherCloud/Source/GameLauncherCloudEditor/Private/GLCManagerWindow.cpp:453-460 | the least position holding the element, present iff the element occurs |
| ManagerWindow.AppSelected | Plugins/GameLauncherCloud/Source/GameLauncherCloudEditor/Private/GLCManagerWindow.cpp:449-461 | the selection is stored; the index moves to the first position whose handle matches, and is unchanged when none does; nothing else changes |
| ManagerWindow.BuildAndUploadClicked | Plugins/GameLauncherCloud/Source/GameLauncherCloudEditor/Private/GLCManagerWindow.cpp:428-447 | with no apps or an index outside [0, count) it reports an error; otherwise it only sets the informational message; no other field changes |
| ManagerWindow.OpenConsistent | Plugins/GameLauncherCloud/Source/GameLauncherCloudEditor/Private/GLCManagerWindow.cpp:23-39 | a freshly opened window satisfies the invariant |
| ManagerWindow.RunConsistent | Plugins/GameLauncherCloud/Source/GameLauncherCloudEditor/Private/GLCManagerWindow.cpp:321-461 | every sequence of handler events preserves the invariant |
| ManagerWindow.EnabledBuildIsAccepted | Plugins/GameLauncherCloud/Source/GameLauncherCloudEditor/Private/GLCManagerWindow.cpp:269 | in every reachable window, an enabled Build & Upload button is never refused |
| ManagerWindow.AuthenticatedWindowsHaveToken | Plugins/GameLauncherCloud/Source/GameLauncherCloudEditor/Private/GLCManagerWindow.cpp:92 | every reachable window that shows the build tab has a client token, so its list-apps request is sent |

## Left out

- HTTP transport: request creation, URLs, headers, request bodies and `ProcessRequest`. A request is reduced to its endpoint and bearer token; a completion is an input value.
- JSON text: `ParseJsonResponse` and serialisation. A parsed body is an `Option` of an object.
- Field names: the model compares JSON field names exactly as written. The engine's object map compares `FString` keys ignoring case, so there `isSuccess` and `IsSuccess` name one field and the lower-then-upper order of `ExtractApiResult` never chooses between two values. The engine's map is not part of this model; the lemmas about the two spellings (`Envelope.KeyPriority`, `Envelope.LowerFlagShadowsUpper`, `Envelope.EmptyLowerErrorsShadowUpper`, `Envelope.UpperCamelEnvelopeAccepted`, `ApiClient.LoginNon200IgnoresUpperCamelErrors`) describe the order in which the code asks, under case-sensitive keys.
- ParseApps: an `apps` entry that is not an object is skipped, following the validity check at line 234. Engine versions whose `AsObject` returns a shared empty object for a non-object would instead add an all-default app; that engine behaviour is not part of this model.
- JSON coercions: the engine's typed accessors also convert between kinds (numbers or strings read as booleans, numbers read as strings). The model reads each field only from a value of its own kind, and `AsString` of a non-string is the empty string. The engine code that does these conversions is not part of this model.
- Numbers: JSON numbers are integers. The double-to-`int32`/`int64` conversion of `TryGetNumberField` is not modelled.
- Upload progress: the in-flight fraction `BytesSent/FileSize` is a float and is not modelled. Only the terminal values -1.0, 0.0 and 1.0 are kept, as integers.
- `CancelActiveUpload`: whether the aborted request fires its completion synchronously is engine behaviour. The following completion is a separate input.
- Async interleaving and callback lifetime: completions are applied one at a time, and a response can arrive without a matching request.
- Logging, and all file-system work: reading the upload file (reduced to readable or not), the config file path, writing the config (assumed to succeed), and `GetDirectorySize`.
- Widgets: layout, `ConstructLoginTab`/`ConstructBuildUploadTab`/`ConstructTipsTab`, the combo-box refresh and the build-notes text box. Fields used only by unimplemented members (`UserPlan`, `CurrentEnvironment`, build detection) are also left out.
- Module startup, menus, commands and build scripts.
- Members that are declared but have no body (packaging, compression, upload orchestration, build-status polling): there is no behaviour to model.

## Findings

| source | as written | input that shows it | evidently intended | confidence | as-written member | corrected member |
|---|---|---|---|---|---|---|
| Plugins/GameLauncherCloud/Source/GameLauncherCloudEditor/Private/GLCApiClient.cpp:280-309 | The quota record is a default-initialised local, so its `bool` and integer fields start uninitialised. The connection-error and envelope-failure paths pass it on untouched, and a success overwrites only the fields the result carries. | a 200 response `{"isSuccess": true, "result": {}}` to can-upload, or no response at all: the reported `CanUpload` is whatever the stack held | the record value-initialised as on the unauthenticated path (line 264), so a failure carries the empty record and a missing `canUpload` reads as false | medium, not executed | ApiClient.CanUploadAsWrittenReadsStorage | ApiClient.CanUploadGrantedOnlyExplicitly |
| Plugins/GameLauncherCloud/Source/GameLauncherCloudEditor/Private/GLCApiClient.cpp:347-374 | The upload ticket is a default-initialised local; failures pass it on untouched, and a success without `appBuildId` keeps the uninitialised id. | a 200 response `{"isSuccess": true, "result": {}}` to start-upload: the reported `AppBuildId` is whatever the stack held | the record value-initialised, so a missing id reads as 0 | medium, not executed | ApiClient.StartUploadAsWrittenReadsStorage | ApiClient.StartUploadFromResponseAlone |
| Plugins/GameLauncherCloud/Source/GameLauncherCloudEditor/Private/GLCApiClient.cpp:503-534 | The build record is a default-initialised local; failures pass it on untouched, and a success keeps every integer the result lacks. | no response to a status poll: the reported `StageProgress` is whatever the stack held | the record value-initialised, so a failure reports progress 0 and a missing integer reads as 0 | medium, not executed | ApiClient.BuildStatusAsWrittenReadsStorage | ApiClient.BuildStatusFromResponseAlone |
| Plugins/GameLauncherCloud/Source/GameLauncherCloudEditor/Private/GLCApiClient.cpp:236-241 | Each app is a default-initialised local; an entry without `id`, `buildCount` or `isOwnedByUser` keeps the uninitialised field. | an `apps` entry `{"name": "game"}`: the reported `Id` is whatever the stack held | the record value-initialised, so a missing id or count reads as 0 and ownership as false | medium, not executed | Records.AppInfoAsWrittenReadsStorage | Records.AppInfoFromEntryAlone |

=== FILE: ApiClient.dfy ===
/**
 * `FGLCApiClient`: the client state (base URL, bearer token, in-flight
 * upload handle) and, per operation, the decision taken before a request
 * is sent and the classification of its completion. A completion is an
 * input value; the network itself is not modelled.
 */
module ApiClient {
  import opened Wrappers
  import opened Json
  import opened Decimal
  import opened Envelope
  import opened Records

  /** The client's private state; `activeUpload` stands for a valid `ActiveUploadRequest` handle. */
  datatype Client = Client(baseUrl: string, authToken: string, activeUpload: bool)

  /** The engine's request status as seen by a completion handler. */
  datatype RequestStatus = NotStarted | Processing | Failed | FailedConnectionError | Succeeded

  /** A received response: status code and the body, `None` when it is not a JSON object. */
  datatype Response = Response(code: int, body: Option<Object>)

  /** The inputs of a completion handler: the transport flag, the response if any, and the request status. */
  datatype Completion = Completion(transportOk: bool, response: Option<Response>, status: RequestStatus)

  /** What a callback receives: `(success, message, payload)`. */
  datatype Outcome<+P> = Outcome(success: bool, message: string, payload: P)

  datatype Endpoint = Login | ListApps | CanUpload | StartUpload | PutFile | FileReady | BuildStatus | CancelBuild

  /** A request handed to the transport; `bearer` is the `Authorization` token it carries, if any. */
  datatype Request = Request(endpoint: Endpoint, bearer: Option<string>)

  /** The start of an operation: either the callback fires at once, or a request goes out. */
  datatype Step<+P> = Immediate(outcome: Outcome<P>) | Sent(request: Request)

  /** A completion handler's result: the client after it ran, and what the callback received. */
  datatype Completed<+P> = Completed(client: Client, outcome: Outcome<P>)

  /** The third progress argument of an upload's terminal report, as a discriminated value. */
  datatype UploadSignal = UploadCancelled | UploadFailed | UploadDone {
    /** The number the callback receives: -1.0, 0.0 or 1.0. */
    function Fraction(): int {
      match this
      case UploadCancelled => -1
      case UploadFailed => 0
      case UploadDone => 1
    }
  }

  const ConnectionError: string := "Connection error"
  const NotAuthenticated: string := "Not authenticated"

  /** The constructor: a client with the given URL and token and no upload in flight. */
  function NewClient(baseUrl: string, authToken: string): (c: Client)
    ensures c.baseUrl == baseUrl && c.authToken == authToken
    ensures !c.activeUpload
  {
    Client(baseUrl, authToken, false)
  }

  function SetAuthToken(client: Client, token: string): (c: Client)
    ensures c.authToken == token
    ensures c.baseUrl == client.baseUrl && c.activeUpload == client.activeUpload
  {
    client.(authToken := token)
  }

  /** A response arrived over a working transport. */
  predicate Connected(c: Completion) {
    c.transportOk && c.response.Some?
  }

  /** The body parsed and holds a non-empty lower-camel `errorMessages` array. */
  predicate NamesError(body: Option<Object>) {
    body.Some? && Fits(body.value, "errorMessages", ArrayKind) && |body.value["errorMessages"].items| > 0
  }

  /** The first entry of a non-empty lower-camel `errorMessages` array of the body, else `fallback`. */
  function ServerMessageOr(fallback: string, body: Option<Object>): (m: string)
    ensures !NamesError(body) ==> m == fallback
    ensures NamesError(body) ==> m == AsString(body.value["errorMessages"].items[0])
  {
    if body.Some? then
      match GetArray(body.value, "errorMessages")
      case Some(errors) => if |errors| > 0 then AsString(errors[0]) else fallback
      case None => fallback
    else fallback
  }

  /** The envelope of a completion handled without a status-code check. */
  function EnvelopeOf(c: Completion): (r: Result<Object, string>)
    ensures !Connected(c) ==> r == Failure(ConnectionError)
    ensures Connected(c) ==> r == ExtractApiResult(c.response.value.body)
  {
    if !Connected(c) then Failure(ConnectionError) else ExtractApiResult(c.response.value.body)
  }

  // ---------------------------------------------------------------- starting

  /** The local token check of every authenticated operation except the upload itself. */
  function BeginAuthenticated<P>(client: Client, endpoint: Endpoint, empty: P): (s: Step<P>)
    ensures s.Immediate? <==> client.authToken == ""
    ensures s.Immediate? ==> s.outcome == Outcome(false, NotAuthenticated, empty)
    ensures s.Sent? ==> s.request.endpoint == endpoint && s.request.bearer == Some(client.authToken)
  {
    if client.authToken == "" then Immediate(Outcome(false, NotAuthenticated, empty))
    else Sent(Request(endpoint, Some(client.authToken)))
  }

  /** Login has no token check and sends no bearer token. */
  function LoginBegin(client: Client): (s: Step<LoginResponse>)
    ensures s == Sent(Request(Login, None))
  {
    Sent(Request(Login, None))
  }

  function GetAppListBegin(client: Client): Step<seq<AppInfo>> {
    BeginAuthenticated(client, ListApps, [])
  }

  function CanUploadBegin(client: Client): Step<CanUploadResponse> {
    BeginAuthenticated(client, CanUpload, EmptyCanUpload)
  }

  function StartUploadBegin(client: Client): Step<StartUploadResponse> {
    BeginAuthenticated(client, StartUpload, EmptyStartUpload)
  }

  function NotifyFileReadyBegin(client: Client): Step<()> {
    BeginAuthenticated(client, FileReady, ())
  }

  function GetBuildStatusBegin(client: Client): Step<BuildStatusResponse> {
    BeginAuthenticated(client, BuildStatus, EmptyBuildStatus)
  }

  function CancelBuildBegin(client: Client): Step<()> {
    BeginAuthenticated(client, CancelBuild, ())
  }

  /**
   * `UploadFileAsync` up to `ProcessRequest`: a file that cannot be read
   * fails at once and leaves the client alone; otherwise the PUT is created
   * and remembered as the active upload. There is no token check.
   */
  function UploadFileBegin(client: Client, fileReadable: bool): (r: (Client, Step<UploadSignal>))
    ensures !fileReadable ==> r.0 == client && r.1 == Immediate(Outcome(false, "Failed to read file", UploadFailed))
    ensures fileReadable ==> r.0 == client.(activeUpload := true) && r.1 == Sent(Request(PutFile, None))
  {
    if !fileReadable then (client, Immediate(Outcome(false, "Failed to read file", UploadFailed)))
    else (client.(activeUpload := true), Sent(Request(PutFile, None)))
  }

  /** With an empty token, every operation that checks it reports "Not authenticated" and sends nothing. */
  lemma UnauthenticatedSendsNothing(client: Client)
    requires client.authToken == ""
    ensures GetAppListBegin(client) == Immediate(Outcome(false, NotAuthenticated, []))
    ensures CanUploadBegin(client) == Immediate(Outcome(false, NotAuthenticated, EmptyCanUpload))
    ensures StartUploadBegin(client) == Immediate(Outcome(false, NotAuthenticated, EmptyStartUpload))
    ensures NotifyFileReadyBegin(client) == Immediate(Outcome(false, NotAuthenticated, ()))
    ensures GetBuildStatusBegin(client) == Immediate(Outcome(false, NotAuthenticated, EmptyBuildStatus))
    ensures CancelBuildBegin(client) == Immediate(Outcome(false, NotAuthenticated, ()))
    ensures LoginBegin(client).Sent?
    ensures UploadFileBegin(client, true).1.Sent?
  {
  }

  // -------------------------------------------------------------- completing

  /** A 200 response whose envelope validates: the only case in which login reads the result. */
  predicate EnvelopeAccepted(c: Completion) {
    Connected(c) && c.response.value.code == 200 && ExtractApiResult(c.response.value.body).Success?
  }

  /** The login completion handler; on success it stores the returned token. */
  function LoginComplete(client: Client, c: Completion): (r: Completed<LoginResponse>)
    ensures r.outcome.success ==> r.outcome.payload.token != ""
    ensures r.outcome.success ==> EnvelopeAccepted(c) && r.outcome.payload == LoginFields(ExtractApiResult(c.response.value.body).value)
    ensures EnvelopeAccepted(c) && !r.outcome.success ==>
      r.outcome.payload == LoginHead(ExtractApiResult(c.response.value.body).value)
    ensures !EnvelopeAccepted(c) ==> !r.outcome.success && r.outcome.payload == EmptyLogin
    ensures r.outcome.success ==> r.outcome.message == "Login successful"
    ensures EnvelopeAccepted(c) && !r.outcome.success ==> r.outcome.message == "Login response missing token"
    ensures Connected(c) && c.response.value.code == 200 && !EnvelopeAccepted(c) ==>
      r.outcome.message == ExtractApiResult(c.response.value.body).error
    ensures r.outcome.success ==> r.client == SetAuthToken(client, r.outcome.payload.token)
    ensures !r.outcome.success ==> r.client == client
  {
    if !Connected(c) then Completed(client, Outcome(false, ConnectionError, EmptyLogin))
    else
      var response := c.response.value;
      if response.code != 200 then
        Completed(client, Outcome(false, ServerMessageOr("HTTP " + IntToDecimal(response.code), response.body), EmptyLogin))
      else if response.body.None? then
        Completed(client, Outcome(false, InvalidJson, EmptyLogin))
      else
        match ExtractApiResult(response.body)
        case Failure(error) => Completed(client, Outcome(false, error, EmptyLogin))
        case Success(result) =>
          var head := LoginHead(result);
          if head.token == "" then Completed(client, Outcome(false, "Login response missing token", head))
          else
            var login := LoginFields(result);
            Completed(SetAuthToken(client, login.token), Outcome(true, "Login successful", login))
  }

  /** Login succeeds exactly for a 200 response whose envelope validates and whose result has a non-empty token string. */
  lemma LoginSuccessIff(client: Client, c: Completion)
    ensures LoginComplete(client, c).outcome.success <==>
      && Connected(c) && c.response.value.code == 200
      && ExtractApiResult(c.response.value.body).Success?
      && GetString(ExtractApiResult(c.response.value.body).value, "token").GetOr("") != ""
    ensures LoginComplete(client, c).outcome.success ==>
      LoginComplete(client, c).client.authToken == GetString(ExtractApiResult(c.response.value.body).value, "token").value
  {
  }

  /** Messages of a failed login that never reached the envelope. */
  lemma LoginErrorMessages(client: Client, c: Completion)
    ensures !Connected(c) ==> LoginComplete(client, c).outcome == Outcome(false, ConnectionError, EmptyLogin)
    ensures Connected(c) && c.response.value.code != 200 ==>
      var response := c.response.value;
      var m := LoginComplete(client, c).outcome.message;
      && !LoginComplete(client, c).outcome.success
      && (!NamesError(response.body) ==> m == "HTTP " + IntToDecimal(response.code))
      && (NamesError(response.body) ==> m == AsString(response.body.value["errorMessages"].items[0]))
  {
  }

  /** A non-200 login reports its status code; only the lower-camel error array can replace it. */
  lemma LoginNon200IgnoresUpperCamelErrors(client: Client, code: int, message: string)
    requires code != 200
    ensures
      var body := map["ErrorMessages" := JArray([JString(message)])];
      LoginComplete(client, Completion(true, Some(Response(code, Some(body))), Succeeded)).outcome.message
        == "HTTP " + IntToDecimal(code)
  {
  }

  /** Distinct status codes give distinct login messages when the body names no error. */
  lemma LoginHttpMessageCarriesCode(client: Client, a: int, b: int)
    requires a != 200 && b != 200
    ensures
      var ca := Completion(true, Some(Response(a, None)), Succeeded);
      var cb := Completion(true, Some(Response(b, None)), Succeeded);
      LoginComplete(client, ca).outcome.message == LoginComplete(client, cb).outcome.message ==> a == b
  {
    PrefixedDecimalInjective("HTTP ", a, b);
  }

  /** List apps: no status-code check; the envelope alone decides. */
  function GetAppListComplete(c: Completion): (o: Outcome<seq<AppInfo>>)
    ensures o.success <==> EnvelopeOf(c).Success?
    ensures o.success ==> o.payload == AppsOf(EnvelopeOf(c).value) && o.message == "Apps retrieved successfully"
    ensures !o.success ==> o.payload == [] && o.message == EnvelopeOf(c).error
  {
    match EnvelopeOf(c)
    case Failure(error) => Outcome(false, error, [])
    case Success(result) => Outcome(true, "Apps retrieved successfully", AppsOf(result))
  }

  /**
   * Quota check as written: the record is a default-initialised local, so a
   * failure hands back `storage` untouched and a success overwrites only the
   * fields the result carries.
   */
  function CanUploadCompleteAsWritten(c: Completion, storage: CanUploadResponse): (o: Outcome<CanUploadResponse>)
    ensures o.success <==> EnvelopeOf(c).Success?
    ensures o.success ==> o.message == "Upload check successful" && o.payload == CanUploadFieldsAsWritten(EnvelopeOf(c).value, storage)
    ensures !o.success ==> o.payload == storage && o.message == EnvelopeOf(c).error
  {
    match EnvelopeOf(c)
    case Failure(error) => Outcome(false, error, storage)
    case Success(result) => Outcome(true, "Upload check successful", CanUploadFieldsAsWritten(result, storage))
  }

  /** Quota check with the record value-initialised (absent scalars read as zero or false). */
  function CanUploadComplete(c: Completion): (o: Outcome<CanUploadResponse>)
    ensures o.success <==> EnvelopeOf(c).Success?
    ensures o.success ==> o.payload == CanUploadFields(EnvelopeOf(c).value)
    ensures o.payload.canUpload ==> o.success
    ensures !o.success ==> o.payload == EmptyCanUpload && o.message == EnvelopeOf(c).error
  {
    CanUploadCompleteAsWritten(c, EmptyCanUpload)
  }

  /** A connection failure, and a validated envelope whose result is empty. */
  const NoResponse := Completion(false, None, Failed)
  const EmptyResult := Completion(true, Some(Response(200, Some(map["isSuccess" := JBool(true), "result" := JObject(map[])]))), Succeeded)

  /** As written, both a failed check and a result without `canUpload` report whatever the storage held. */
  lemma CanUploadAsWrittenReadsStorage()
    ensures !CanUploadCompleteAsWritten(NoResponse, EmptyCanUpload.(canUpload := true)).success
    ensures CanUploadCompleteAsWritten(NoResponse, EmptyCanUpload.(canUpload := true)).payload.canUpload
    ensures CanUploadCompleteAsWritten(EmptyResult, EmptyCanUpload).payload.canUpload
         != CanUploadCompleteAsWritten(EmptyResult, EmptyCanUpload.(canUpload := true)).payload.canUpload
  {
  }

  /**
   * Corrected: permission is granted only by an explicit `canUpload: true`
   * in a validated result, and a result carrying every scalar reads the same
   * whatever the storage held.
   */
  lemma CanUploadGrantedOnlyExplicitly(c: Completion, storage: CanUploadResponse)
    ensures CanUploadComplete(c).payload.canUpload <==>
      EnvelopeOf(c).Success? && "canUpload" in EnvelopeOf(c).value && EnvelopeOf(c).value["canUpload"] == JBool(true)
    ensures EnvelopeOf(c).Success? && CanUploadCarriesEveryScalar(EnvelopeOf(c).value) ==>
      CanUploadComplete(c) == CanUploadCompleteAsWritten(c, storage)
  {
  }

  /** Upload ticket as written: a failure hands back `storage`, a success keeps its `appBuildId` when the result lacks one. */
  function StartUploadCompleteAsWritten(c: Completion, storage: StartUploadResponse): (o: Outcome<StartUploadResponse>)
    ensures o.success <==> EnvelopeOf(c).Success?
    ensures o.success ==> o.message == "Upload started successfully" && o.payload == StartUploadFieldsAsWritten(EnvelopeOf(c).value, storage)
    ensures !o.success ==> o.payload == storage && o.message == EnvelopeOf(c).error
  {
    match EnvelopeOf(c)
    case Failure(error) => Outcome(false, error, storage)
    case Success(result) => Outcome(true, "Upload started successfully", StartUploadFieldsAsWritten(result, storage))
  }

  /** Upload ticket with the record value-initialised. */
  function StartUploadComplete(c: Completion): (o: Outcome<StartUploadResponse>)
    ensures o.success <==> EnvelopeOf(c).Success?
    ensures o.success ==> o.payload == StartUploadFields(EnvelopeOf(c).value)
    ensures !o.success ==> o.payload == EmptyStartUpload && o.message == EnvelopeOf(c).error
  {
    StartUploadCompleteAsWritten(c, EmptyStartUpload)
  }

  /** As written, a failed start and a result without `appBuildId` report the storage's build id. */
  lemma StartUploadAsWrittenReadsStorage()
    ensures StartUploadCompleteAsWritten(NoResponse, EmptyStartUpload.(appBuildId := 42)).payload.appBuildId == 42
    ensures StartUploadCompleteAsWritten(EmptyResult, EmptyStartUpload.(appBuildId := 42)).success
    ensures StartUploadCompleteAsWritten(EmptyResult, EmptyStartUpload.(appBuildId := 42)).payload.appBuildId == 42
  {
  }

  /** Corrected: the build id comes from the result alone, zero when absent; with it present the storage does not matter. */
  lemma StartUploadFromResponseAlone(c: Completion, storage: StartUploadResponse)
    ensures StartUploadComplete(c).payload.appBuildId ==
      if EnvelopeOf(c).Success? && Fits(EnvelopeOf(c).value, "appBuildId", NumberKind)
      then EnvelopeOf(c).value["appBuildId"].n else 0
    ensures EnvelopeOf(c).Success? && Fits(EnvelopeOf(c).value, "appBuildId", NumberKind) ==>
      StartUploadComplete(c) == StartUploadCompleteAsWritten(c, storage)
  {
  }

  /** Build status as written: a failure hands back `storage`, a success keeps every integer the result lacks. */
  function GetBuildStatusCompleteAsWritten(c: Completion, storage: BuildStatusResponse): (o: Outcome<BuildStatusResponse>)
    ensures o.success <==> EnvelopeOf(c).Success?
    ensures o.success ==> o.message == "Success" && o.payload == BuildStatusFieldsAsWritten(EnvelopeOf(c).value, storage)
    ensures !o.success ==> o.payload == storage && o.message == EnvelopeOf(c).error
  {
    match EnvelopeOf(c)
    case Failure(error) => Outcome(false, error, storage)
    case Success(result) => Outcome(true, "Success", BuildStatusFieldsAsWritten(result, storage))
  }

  /** Build status with the record value-initialised. */
  function GetBuildStatusComplete(c: Completion): (o: Outcome<BuildStatusResponse>)
    ensures o.success <==> EnvelopeOf(c).Success?
    ensures o.success ==> o.payload == BuildStatusFields(EnvelopeOf(c).value)
    ensures !o.success ==> o.payload == EmptyBuildStatus && o.message == EnvelopeOf(c).error
  {
    GetBuildStatusCompleteAsWritten(c, EmptyBuildStatus)
  }

  /** As written, a failed poll and a result without `stageProgress` report the storage's progress. */
  lemma BuildStatusAsWrittenReadsStorage()
    ensures GetBuildStatusCompleteAsWritten(NoResponse, EmptyBuildStatus.(stageProgress := 99)).payload.stageProgress == 99
    ensures GetBuildStatusCompleteAsWritten(EmptyResult, EmptyBuildStatus.(stageProgress := 99)).success
    ensures GetBuildStatusCompleteAsWritten(EmptyResult, EmptyBuildStatus.(stageProgress := 99)).payload.stageProgress == 99
  {
  }

  /** Corrected: a failed poll reports zero progress, and a result carrying every integer reads the same whatever the storage held. */
  lemma BuildStatusFromResponseAlone(c: Completion, storage: BuildStatusResponse)
    ensures !EnvelopeOf(c).Success? ==> GetBuildStatusComplete(c).payload.stageProgress == 0
    ensures GetBuildStatusComplete(c).payload.stageProgress ==
      if EnvelopeOf(c).Success? && Fits(EnvelopeOf(c).value, "stageProgress", NumberKind)
      then EnvelopeOf(c).value["stageProgress"].n else 0
    ensures EnvelopeOf(c).Success? && BuildStatusCarriesEveryScalar(EnvelopeOf(c).value) ==>
      GetBuildStatusComplete(c) == GetBuildStatusCompleteAsWritten(c, storage)
  {
  }

  /** The envelope operations succeed on any status code once the body validates. */
  lemma EnvelopeOperationsIgnoreStatusCode(code: int, result: Object)
    ensures
      var c := Completion(true, Some(Response(code, Some(map["isSuccess" := JBool(true), "result" := JObject(result)]))), Succeeded);
      GetAppListComplete(c).success && CanUploadComplete(c).success
      && StartUploadComplete(c).success && GetBuildStatusComplete(c).success
  {
  }

  /**
   * The PUT completion handler: the handle is cleared first, then exactly
   * one of cancelled, failed or completed is reported.
   */
  function UploadFileComplete(client: Client, c: Completion): (r: Completed<UploadSignal>)
    ensures r.client == client.(activeUpload := false)
    ensures r.outcome.success <==> r.outcome.payload == UploadDone
  {
    var cleared := client.(activeUpload := false);
    if !c.transportOk && (c.response.None? || c.status == Failed) then
      Completed(cleared, Outcome(false, "Upload cancelled", UploadCancelled))
    else if !c.transportOk || c.response.None? || c.response.value.code != 200 then
      var code := if c.response.Some? then c.response.value.code else 0;
      Completed(cleared, Outcome(false, "Upload failed: HTTP " + IntToDecimal(code), UploadFailed))
    else
      Completed(cleared, Outcome(true, "Upload completed", UploadDone))
  }

  /** The three-way classification of an upload completion and the number each reports. */
  lemma UploadClassification(client: Client, c: Completion)
    ensures var o := UploadFileComplete(client, c).outcome;
      && (o.payload == UploadCancelled <==> !c.transportOk && (c.response.None? || c.status == Failed))
      && (o.payload == UploadDone <==> c.transportOk && c.response.Some? && c.response.value.code == 200)
      && (o.payload == UploadCancelled ==> o.message == "Upload cancelled" && o.payload.Fraction() == -1)
      && (o.payload == UploadDone ==> o.message == "Upload completed" && o.payload.Fraction() == 1)
      && (o.payload == UploadFailed ==>
            o.payload.Fraction() == 0
            && o.message == "Upload failed: HTTP " + IntToDecimal(if c.response.Some? then c.response.value.code else 0))
  {
  }

  /** A transport failure that still delivered a response in a status other than Failed is a failure, not a cancellation. */
  lemma FailedTransportWithResponseIsNotCancellation(client: Client, code: int)
    ensures UploadFileComplete(client, Completion(false, Some(Response(code, None)), Succeeded)).outcome
      == Outcome(false, "Upload failed: HTTP " + IntToDecimal(code), UploadFailed)
  {
  }

  /** File-ready ignores the body: it succeeds iff a 200 arrived over a working transport. */
  function NotifyFileReadyComplete(c: Completion): (o: Outcome<()>)
    ensures o.success <==> Connected(c) && c.response.value.code == 200
    ensures o.success ==> o.message == "File ready notification sent"
    ensures !o.success ==>
      o.message == "Request failed: HTTP " + IntToDecimal(if c.response.Some? then c.response.value.code else 0)
  {
    if !c.transportOk || c.response.None? || c.response.value.code != 200 then
      Outcome(false, "Request failed: HTTP " + IntToDecimal(if c.response.Some? then c.response.value.code else 0), ())
    else Outcome(true, "File ready notification sent", ())
  }

  /** Two completions that differ only in their bodies produce the same file-ready outcome. */
  lemma NotifyFileReadyIgnoresBody(transportOk: bool, code: int, a: Option<Object>, b: Option<Object>, status: RequestStatus)
    ensures NotifyFileReadyComplete(Completion(transportOk, Some(Response(code, a)), status))
         == NotifyFileReadyComplete(Completion(transportOk, Some(Response(code, b)), status))
  {
  }

  /** Cancel build: a 200 succeeds; another code reports it, unless the lower-camel error array names the error. */
  function CancelBuildComplete(c: Completion): (o: Outcome<()>)
    ensures o.success <==> Connected(c) && c.response.value.code == 200
    ensures o.success ==> o.message == "Build cancelled successfully"
    ensures !Connected(c) ==> o.message == ConnectionError
    ensures Connected(c) && c.response.value.code != 200 ==>
      o.message == ServerMessageOr("Failed to cancel build: HTTP " + IntToDecimal(c.response.value.code), c.response.value.body)
  {
    if !Connected(c) then Outcome(false, ConnectionError, ())
    else if c.response.value.code == 200 then Outcome(true, "Build cancelled successfully", ())
    else
      Outcome(false, ServerMessageOr("Failed to cancel build: HTTP " + IntToDecimal(c.response.value.code), c.response.value.body), ())
  }

  /** Distinct non-200 codes give distinct cancel-build messages when the body names no error. */
  lemma CancelBuildMessageCarriesCode(a: int, b: int)
    requires a != 200 && b != 200
    ensures
      var ca := Completion(true, Some(Response(a, None)), Succeeded);
      var cb := Completion(true, Some(Response(b, None)), Succeeded);
      !CancelBuildComplete(ca).success
      && (CancelBuildComplete(ca).message == CancelBuildComplete(cb).message ==> a == b)
  {
    PrefixedDecimalInjective("Failed to cancel build: HTTP ", a, b);
  }

  /** A 200 cancels the build whatever the body says, even an envelope reporting failure. */
  lemma CancelBuildIgnoresBodyOn200(body: Option<Object>)
    ensures CancelBuildComplete(Completion(true, Some(Response(200, body)), Succeeded)).success
    ensures CancelBuildComplete(Completion(true, Some(Response(200, body)), Succeeded)).message
         == CancelBuildComplete(Completion(true, Some(Response(200, None)), Succeeded)).message
  {
  }

  /**
   * `CancelActiveUpload`: aborts the in-flight PUT if there is one and
   * forgets it. The second component tells whether an abort was issued.
   */
  function CancelActiveUpload(client: Client): (r: (Client, bool))
    ensures !r.0.activeUpload
    ensures r.1 <==> client.activeUpload
    ensures r.0.baseUrl == client.baseUrl && r.0.authToken == client.authToken
  {
    (client.(activeUpload := false), client.activeUpload)
  }

  /** Cancelling twice is cancelling once, and cancelling with nothing active changes nothing. */
  lemma CancelActiveUploadIdempotent(client: Client)
    ensures CancelActiveUpload(CancelActiveUpload(client).0) == (CancelActiveUpload(client).0, false)
    ensures !client.activeUpload ==> CancelActiveUpload(client) == (client, false)
  {
  }

  /** The upload handle lives exactly from a readable file's PUT to its completion or cancellation. */
  lemma UploadHandleLifecycle(client: Client, c: Completion)
    ensures UploadFileBegin(client, true).0.activeUpload
    ensures !UploadFileComplete(UploadFileBegin(client, true).0, c).client.activeUpload
    ensures UploadFileBegin(client, false).0 == client
    ensures !CancelActiveUpload(UploadFileBegin(client, true).0).0.activeUpload
    ensures CancelActiveUpload(UploadFileBegin(client, true).0).1
  {
  }

  /** Only login changes the token, and it only ever installs a non-empty one. */
  lemma TokenChangesOnlyOnLogin(client: Client, c: Completion)
    ensures UploadFileComplete(client, c).client.authToken == client.authToken
    ensures CancelActiveUpload(client).0.authToken == client.authToken
    ensures LoginComplete(client, c).client.authToken != client.authToken ==>
      LoginComplete(client, c).outcome.success && LoginComplete(client, c).client.authToken != ""
  {
  }
}

=== FILE: Decimal.dfy ===
/**
 * Decimal rendering of integers, as the `%d` conversion of the client's
 * formatted messages ("HTTP 404", "Loaded 3 app(s)") produces it, together
 * with the reading it inverts.
 */
module Decimal {
  import opened Wrappers

  predicate IsDigit(c: char) {
    '0' <= c <= '9'
  }

  function DigitChar(d: nat): (c: char)
    requires d < 10
    ensures IsDigit(c) && (c as int) - ('0' as int) == d
  {
    ('0' as int + d) as char
  }

  function DigitValue(c: char): nat
    requires IsDigit(c)
  {
    (c as int) - ('0' as int)
  }

  /** The shortest base-ten spelling of `n`. */
  function NatToDecimal(n: nat): (s: string)
    ensures |s| >= 1
    ensures forall i :: 0 <= i < |s| ==> IsDigit(s[i])
    ensures |s| > 1 ==> s[0] != '0'
  {
    if n < 10 then [DigitChar(n)]
    else NatToDecimal(n / 10) + [DigitChar(n % 10)]
  }

  /** `%d` of an integer: a minus sign before the digits of its magnitude when it is negative. */
  function IntToDecimal(n: int): (s: string)
    ensures |s| >= 1
    ensures n < 0 <==> s[0] == '-'
  {
    if n < 0 then "-" + NatToDecimal(-n) else NatToDecimal(n)
  }

  /** The value of a string of digits. */
  function DigitsValue(s: string): nat
    requires forall i :: 0 <= i < |s| ==> IsDigit(s[i])
  {
    if |s| == 0 then 0
    else DigitsValue(s[..|s| - 1]) * 10 + DigitValue(s[|s| - 1])
  }

  /** Reads back what `IntToDecimal` writes; `None` for text that is not an optionally signed digit string. */
  function ParseInt(s: string): Option<int> {
    if |s| > 0 && s[0] == '-' then
      if |s| > 1 && forall i :: 1 <= i < |s| ==> IsDigit(s[i]) then
        var magnitude: int := DigitsValue(s[1..]);
        Some(-magnitude)
      else None
    else if |s| > 0 && forall i :: 0 <= i < |s| ==> IsDigit(s[i]) then Some(DigitsValue(s))
    else None
  }

  lemma {:induction false} NatToDecimalRoundTrip(n: nat)
    ensures DigitsValue(NatToDecimal(n)) == n
    decreases n
  {
    var s := NatToDecimal(n);
    if n >= 10 {
      NatToDecimalRoundTrip(n / 10);
      assert s[..|s| - 1] == NatToDecimal(n / 10);
    }
  }

  /** Every rendered integer reads back as itself. */
  lemma IntToDecimalRoundTrip(n: int)
    ensures ParseInt(IntToDecimal(n)) == Some(n)
  {
    var s := IntToDecimal(n);
    if n < 0 {
      NatToDecimalRoundTrip(-n);
      assert s[1..] == NatToDecimal(-n);
    } else {
      NatToDecimalRoundTrip(n);
    }
  }

  /** Distinct numbers render differently, so a message carries its number unambiguously. */
  lemma IntToDecimalInjective(a: int, b: int)
    ensures IntToDecimal(a) == IntToDecimal(b) ==> a == b
  {
    IntToDecimalRoundTrip(a);
    IntToDecimalRoundTrip(b);
  }

  /** Two messages that share a prefix and end in the rendering of a number differ whenever the numbers do. */
  lemma PrefixedDecimalInjective(prefix: string, a: int, b: int)
    ensures prefix + IntToDecimal(a) == prefix + IntToDecimal(b) ==> a == b
  {
    if prefix + IntToDecimal(a) == prefix + IntToDecimal(b) {
      assert IntToDecimal(a) == (prefix + IntToDecimal(a))[|prefix|..];
      assert IntToDecimal(b) == (prefix + IntToDecimal(b))[|prefix|..];
      IntToDecimalInjective(a, b);
    }
  }
}

=== FILE: Envelope.dfy ===
/**
 * The uniform response envelope `{isSuccess, result, errorMessages}` and
 * `FGLCApiClient::ExtractApiResult`, which validates it. Every field is
 * looked up under its lower-camel spelling first and under its upper-camel
 * spelling only when the first is absent or has the wrong kind.
 */
module Envelope {
  import opened Wrappers
  import opened Json

  const SuccessKeys: seq<string> := ["isSuccess", "IsSuccess"]
  const ResultKeys: seq<string> := ["result", "Result"]
  const ErrorKeys: seq<string> := ["errorMessages", "ErrorMessages"]

  const InvalidJson: string := "Invalid JSON response"
  const RequestFailed: string := "Request failed"

  /** The success flag; `false` when neither spelling holds a boolean. */
  function SuccessFlag(obj: Object): bool {
    match FirstOf(obj, SuccessKeys, BoolKind)
    case Some(v) => v.b
    case None => false
  }

  /** The result object, when either spelling holds an object. */
  function ResultObject(obj: Object): Option<Object> {
    match FirstOf(obj, ResultKeys, ObjectKind)
    case Some(v) => Some(v.fields)
    case None => None
  }

  /** The error array, when either spelling holds an array. */
  function ErrorArray(obj: Object): Option<seq<Json>> {
    match FirstOf(obj, ErrorKeys, ArrayKind)
    case Some(v) => Some(v.items)
    case None => None
  }

  /** Reference reading of a two-spelling field: the lower-camel key decides whenever it fits. */
  function Preferred(obj: Object, lower: string, upper: string, k: Kind): Option<Json> {
    if Fits(obj, lower, k) then Some(obj[lower])
    else if Fits(obj, upper, k) then Some(obj[upper])
    else None
  }

  /** The error text of a parsed envelope that did not validate. */
  ghost function ErrorTextOf(obj: Object): string {
    match Preferred(obj, "errorMessages", "ErrorMessages", ArrayKind)
    case Some(v) => if |v.items| > 0 then AsString(v.items[0]) else RequestFailed
    case None => RequestFailed
  }

  /** Reference definition of a validating envelope. */
  ghost predicate Validates(obj: Object) {
    && Preferred(obj, "isSuccess", "IsSuccess", BoolKind) == Some(JBool(true))
    && Preferred(obj, "result", "Result", ObjectKind).Some?
  }

  /**
   * `ExtractApiResult`: the result object when the body parsed, its success
   * flag is true and it carries a result object; otherwise the error text.
   */
  function ExtractApiResult(body: Option<Object>): (r: Result<Object, string>)
    ensures r.Success? <==> body.Some? && Validates(body.value)
    ensures r.Success? ==> Preferred(body.value, "result", "Result", ObjectKind) == Some(JObject(r.value))
    ensures r.Failure? && body.None? ==> r.error == InvalidJson
    ensures r.Failure? && body.Some? ==> r.error == ErrorTextOf(body.value)
  {
    if body.None? then Failure(InvalidJson)
    else
      var obj := body.value;
      KeyPriority(obj, "isSuccess", "IsSuccess", BoolKind);
      KeyPriority(obj, "result", "Result", ObjectKind);
      KeyPriority(obj, "errorMessages", "ErrorMessages", ArrayKind);
      if SuccessFlag(obj) && ResultObject(obj).Some? then
        Success(ResultObject(obj).value)
      else
        match ErrorArray(obj)
        case Some(errors) =>
          if |errors| > 0 then Failure(AsString(errors[0])) else Failure(RequestFailed)
        case None => Failure(RequestFailed)
  }

  /** The ordered two-key lookup agrees with the reference reading for every pair of spellings. */
  lemma KeyPriority(obj: Object, lower: string, upper: string, k: Kind)
    ensures FirstOf(obj, [lower, upper], k) == Preferred(obj, lower, upper, k)
  {
    var keys := [lower, upper];
    assert FirstOf(obj, keys[1..], k) == FirstOf(obj, [upper], k);
    assert [upper][1..] == [];
  }

  /** A lower-camel flag of the right kind shadows the upper-camel one: `"isSuccess": false` beats `"IsSuccess": true`. */
  lemma LowerFlagShadowsUpper(obj: Object, result: Object)
    requires obj == map["isSuccess" := JBool(false), "IsSuccess" := JBool(true), "result" := JObject(result)]
    ensures ExtractApiResult(Some(obj)) == Failure(RequestFailed)
  {
  }

  /** A true flag without a result object under either spelling still fails. */
  lemma TrueFlagWithoutResultFails(obj: Object)
    requires Preferred(obj, "isSuccess", "IsSuccess", BoolKind) == Some(JBool(true))
    requires !Fits(obj, "result", ObjectKind) && !Fits(obj, "Result", ObjectKind)
    ensures ExtractApiResult(Some(obj)).Failure?
  {
  }

  /** A body that has no boolean `true` under either spelling of the flag never validates. */
  lemma NoTrueFlagFails(obj: Object)
    requires !("isSuccess" in obj && obj["isSuccess"] == JBool(true))
    requires !("IsSuccess" in obj && obj["IsSuccess"] == JBool(true))
    ensures ExtractApiResult(Some(obj)).Failure?
  {
  }

  /** A present but empty lower-camel error array hides a non-empty upper-camel one. */
  lemma EmptyLowerErrorsShadowUpper(obj: Object, message: string)
    requires obj == map["isSuccess" := JBool(false), "errorMessages" := JArray([]),
                        "ErrorMessages" := JArray([JString(message)])]
    ensures ExtractApiResult(Some(obj)) == Failure(RequestFailed)
  {
  }

  /** The upper-camel spellings are honoured when the lower-camel ones are absent. */
  lemma UpperCamelEnvelopeAccepted(result: Object)
    ensures ExtractApiResult(Some(map["IsSuccess" := JBool(true), "Result" := JObject(result)])) == Success(result)
  {
  }
}

=== FILE: Json.dfy ===
/**
 * The JSON values the client receives, and the field accessors it uses on
 * them (the engine's `TryGet*Field` family and `FJsonValue::AsString`).
 */
module Json {
  import opened Wrappers

  /** A JSON value. Numbers are integers: every numeric field the client reads is an integer. */
  datatype Json =
    | JNull
    | JBool(b: bool)
    | JNumber(n: int)
    | JString(str: string)
    | JArray(items: seq<Json>)
    | JObject(fields: map<string, Json>)

  /** A JSON object: what a successful parse of a response body yields. */
  type Object = map<string, Json>

  /** The kinds a typed field accessor asks for. */
  datatype Kind = BoolKind | NumberKind | StringKind | ArrayKind | ObjectKind

  predicate HasKind(v: Json, k: Kind) {
    match k
    case BoolKind => v.JBool?
    case NumberKind => v.JNumber?
    case StringKind => v.JString?
    case ArrayKind => v.JArray?
    case ObjectKind => v.JObject?
  }

  /** `key` is present in `obj` and holds a value of kind `k`: a typed accessor succeeds. */
  predicate Fits(obj: Object, key: string, k: Kind) {
    key in obj && HasKind(obj[key], k)
  }

  /**
   * Multi-key field access: the candidate keys are tried in order and the
   * first one that holds a value of the requested kind wins; a key that is
   * present with the wrong kind is skipped as if it were absent.
   */
  function FirstOf(obj: Object, keys: seq<string>, k: Kind): (r: Option<Json>)
    ensures r.Some? <==> exists i :: 0 <= i < |keys| && Fits(obj, keys[i], k)
    ensures r.Some? ==> HasKind(r.value, k)
    ensures r.Some? ==>
      exists i :: 0 <= i < |keys| && Fits(obj, keys[i], k) && r.value == obj[keys[i]]
        && forall j :: 0 <= j < i ==> !Fits(obj, keys[j], k)
  {
    if |keys| == 0 then None
    else if Fits(obj, keys[0], k) then Some(obj[keys[0]])
    else
      var rest := FirstOf(obj, keys[1..], k);
      assert forall i :: 1 <= i < |keys| ==> keys[i] == keys[1..][i - 1];
      rest
  }

  /** `TryGetBoolField`. */
  function GetBool(obj: Object, key: string): (r: Option<bool>)
    ensures r.Some? <==> Fits(obj, key, BoolKind)
    ensures r.Some? ==> obj[key] == JBool(r.value)
  {
    if Fits(obj, key, BoolKind) then Some(obj[key].b) else None
  }

  /** `TryGetNumberField`. */
  function GetNumber(obj: Object, key: string): (r: Option<int>)
    ensures r.Some? <==> Fits(obj, key, NumberKind)
    ensures r.Some? ==> obj[key] == JNumber(r.value)
  {
    if Fits(obj, key, NumberKind) then Some(obj[key].n) else None
  }

  /** `TryGetStringField`. */
  function GetString(obj: Object, key: string): (r: Option<string>)
    ensures r.Some? <==> Fits(obj, key, StringKind)
    ensures r.Some? ==> obj[key] == JString(r.value)
  {
    if Fits(obj, key, StringKind) then Some(obj[key].str) else None
  }

  /** `TryGetArrayField`. */
  function GetArray(obj: Object, key: string): (r: Option<seq<Json>>)
    ensures r.Some? <==> Fits(obj, key, ArrayKind)
    ensures r.Some? ==> obj[key] == JArray(r.value)
  {
    if Fits(obj, key, ArrayKind) then Some(obj[key].items) else None
  }

  /** `TryGetObjectField`. */
  function GetObject(obj: Object, key: string): (r: Option<Object>)
    ensures r.Some? <==> Fits(obj, key, ObjectKind)
    ensures r.Some? ==> obj[key] == JObject(r.value)
  {
    if Fits(obj, key, ObjectKind) then Some(obj[key].fields) else None
  }

  /** `FJsonValue::AsString`: the text of a JSON string, the empty string for any other value. */
  function AsString(v: Json): (s: string)
    ensures v.JString? ==> s == v.str
    ensures !v.JString? ==> s == ""
  {
    if v.JString? then v.str else ""
  }
}

=== FILE: ManagerWindow.dfy ===
/**
 * The non-widget state of `SGLCManagerWindow` and its handlers: login,
 * logout, loading the app list, choosing an app and the Build & Upload
 * button, with `Construct` re-reading the saved configuration every time
 * the window is rebuilt. The configuration file is a key-value map.
 */
module ManagerWindow {
  import opened Wrappers
  import opened Decimal
  import opened Records
  import opened ApiClient

  const DefaultApiUrl: string := "https://app.gamelauncher.cloud"

  const AuthTokenKey: string := "authToken"
  const UserEmailKey: string := "userEmail"
  const ApiUrlKey: string := "apiUrl"

  const BuildNotAvailable: string :=
    "Build & Upload feature requires full UAT integration.\nThis is a demonstration version. Full implementation coming soon!"

  const NoAppsFound: string := "No apps found. Create an app in the Game Launcher Cloud dashboard first."

  /** The saved configuration: `None` when the file is missing or is not a JSON object. */
  type Config = Option<map<string, string>>

  /** The kind of the status line. */
  datatype MessageType = Unset | InfoMessage | WarningMessage | ErrorMessage | SuccessMessage

  /** A combo-box option: a shared string. Identity is the allocation `id`, so two loads never share handles. */
  datatype NameHandle = NameHandle(id: nat, name: string)

  datatype Window = Window(
    client: Client,
    apiUrl: string,
    authToken: string,
    userEmail: string,
    isAuthenticated: bool,
    apiKeyInput: string,
    availableApps: seq<AppInfo>,
    appNames: seq<NameHandle>,
    selectedApp: Option<NameHandle>,
    selectedAppIndex: int,
    isLoggingIn: bool,
    isLoadingApps: bool,
    isBuilding: bool,
    isUploading: bool,
    isMonitoringBuild: bool,
    statusMessage: string,
    statusType: MessageType,
    uploadProgress: real,
    currentBuildId: int,
    nextHandle: nat)

  /** The window together with the configuration file it reads and writes. */
  datatype Session = Session(window: Window, config: Config)

  /** A freshly allocated widget before `Construct`: empty strings and lists, no client token. */
  function Blank(): Window {
    Window(NewClient("", ""), "", "", "", false, "", [], [], None, 0,
           false, false, false, false, false, "", Unset, 0.0, 0, 0)
  }

  /** The value saved under `key`, or `current` when the file or the key is missing. */
  function ConfigValue(cfg: Config, key: string, current: string): string {
    if cfg.Some? && key in cfg.value then cfg.value[key] else current
  }

  /** `SaveConfig`: the file is rewritten with exactly the token, the e-mail and the API URL. */
  function SaveConfig(w: Window): (cfg: Config)
    ensures cfg.Some? && cfg.value.Keys == {AuthTokenKey, UserEmailKey, ApiUrlKey}
    ensures ConfigValue(cfg, AuthTokenKey, "") == w.authToken
    ensures ConfigValue(cfg, UserEmailKey, "") == w.userEmail
    ensures ConfigValue(cfg, ApiUrlKey, "") == w.apiUrl
  {
    Some(map[AuthTokenKey := w.authToken, UserEmailKey := w.userEmail, ApiUrlKey := w.apiUrl])
  }

  /** `LoadConfig`: saved values override; a non-empty token then marks the window authenticated. */
  function LoadConfig(w: Window, cfg: Config): (r: Window)
    ensures r.authToken == ConfigValue(cfg, AuthTokenKey, w.authToken)
    ensures r.userEmail == ConfigValue(cfg, UserEmailKey, w.userEmail)
    ensures r.apiUrl == ConfigValue(cfg, ApiUrlKey, w.apiUrl)
    ensures r.isAuthenticated == (w.isAuthenticated || (cfg.Some? && r.authToken != ""))
    ensures r.(authToken := w.authToken, userEmail := w.userEmail, apiUrl := w.apiUrl, isAuthenticated := w.isAuthenticated) == w
  {
    match cfg
    case None => w
    case Some(fields) =>
      var loaded := w.(
        authToken := ConfigValue(cfg, AuthTokenKey, w.authToken),
        userEmail := ConfigValue(cfg, UserEmailKey, w.userEmail),
        apiUrl := ConfigValue(cfg, ApiUrlKey, w.apiUrl));
      if loaded.authToken != "" then loaded.(isAuthenticated := true) else loaded
  }

  /**
   * The state part of `Construct`: every busy flag off, progress, selection
   * and build id back to zero, the default API URL, then the saved
   * configuration, then a new client for the resulting URL and token.
   */
  function Construct(w: Window, cfg: Config): (r: Window)
    ensures !r.isLoggingIn && !r.isLoadingApps && !r.isBuilding && !r.isUploading && !r.isMonitoringBuild
    ensures r.uploadProgress == 0.0 && r.selectedAppIndex == 0 && r.currentBuildId == 0
    ensures r.authToken == ConfigValue(cfg, AuthTokenKey, w.authToken)
    ensures r.userEmail == ConfigValue(cfg, UserEmailKey, w.userEmail)
    ensures r.apiUrl == ConfigValue(cfg, ApiUrlKey, DefaultApiUrl)
    ensures r.isAuthenticated <==> cfg.Some? && r.authToken != ""
    ensures r.client == NewClient(r.apiUrl, r.authToken)
    ensures r.apiKeyInput == w.apiKeyInput && r.availableApps == w.availableApps && r.appNames == w.appNames
    ensures r.selectedApp == w.selectedApp && r.nextHandle == w.nextHandle
    ensures r.statusMessage == w.statusMessage && r.statusType == w.statusType
  {
    var reset := w.(
      isAuthenticated := false, isLoggingIn := false, isLoadingApps := false, isBuilding := false,
      isUploading := false, isMonitoringBuild := false, uploadProgress := 0.0,
      selectedAppIndex := 0, currentBuildId := 0, apiUrl := DefaultApiUrl);
    var loaded := LoadConfig(reset, cfg);
    loaded.(client := NewClient(loaded.apiUrl, loaded.authToken))
  }

  /** The window as first opened. */
  function Open(cfg: Config): Window {
    Construct(Blank(), cfg)
  }

  /** Saving and rebuilding restores the saved identity, and authenticates exactly when the token is non-empty. */
  lemma ConstructAfterSaveRestores(w: Window, other: Window)
    ensures var r := Construct(other, SaveConfig(w));
      && r.authToken == w.authToken && r.userEmail == w.userEmail && r.apiUrl == w.apiUrl
      && (r.isAuthenticated <==> w.authToken != "")
      && r.client.authToken == w.authToken
  {
  }

  /** Rebuilding twice from the same file is rebuilding once. */
  lemma ConstructIdempotent(w: Window, cfg: Config)
    ensures Construct(Construct(w, cfg), cfg) == Construct(w, cfg)
  {
  }

  // ------------------------------------------------------------------ login

  /** The API-key text box. */
  function ApiKeyEdited(w: Window, text: string): Window {
    w.(apiKeyInput := text)
  }

  /** `OnLoginWithApiKeyClicked`: an empty key is refused locally; otherwise a login request goes out. */
  function LoginClicked(w: Window): (r: (Window, Option<Request>))
    ensures w.apiKeyInput == "" ==>
      r.1.None? && r.0 == w.(statusMessage := "Please enter an API Key", statusType := ErrorMessage)
    ensures w.apiKeyInput != "" ==>
      r.1 == Some(Request(Login, None)) && r.0.isLoggingIn
      && r.0 == w.(isLoggingIn := true, statusMessage := "Logging in...", statusType := InfoMessage)
  {
    if w.apiKeyInput == "" then
      (w.(statusMessage := "Please enter an API Key", statusType := ErrorMessage), None)
    else
      var pending := w.(isLoggingIn := true, statusMessage := "Logging in...", statusType := InfoMessage);
      (pending, Some(LoginBegin(pending.client).request))
  }

  /** No work is in flight: every busy flag is off, progress and build id are zero. */
  predicate Idle(w: Window) {
    && !w.isLoggingIn && !w.isLoadingApps && !w.isBuilding && !w.isUploading && !w.isMonitoringBuild
    && w.uploadProgress == 0.0 && w.currentBuildId == 0
  }

  /**
   * The login callback: the flag is always cleared; on success the token and
   * e-mail are adopted, saved, and the window is rebuilt from the file;
   * on failure only the status line changes.
   */
  function LoginCompleted(s: Session, c: Completion): (r: Session)
    ensures !r.window.isLoggingIn
    ensures var done := LoginComplete(s.window.client, c);
      !done.outcome.success ==>
        r == Session(s.window.(isLoggingIn := false, statusMessage := done.outcome.message, statusType := ErrorMessage), s.config)
    ensures var done := LoginComplete(s.window.client, c);
      done.outcome.success ==>
        && r.window.isAuthenticated
        && r.window.authToken == done.outcome.payload.token
        && r.window.client.authToken == done.outcome.payload.token
        && r.window.userEmail == done.outcome.payload.email
        && ConfigValue(r.config, AuthTokenKey, "") == done.outcome.payload.token
        && r.window.statusMessage == "Login successful!" && r.window.statusType == SuccessMessage
        && r.window.apiKeyInput == s.window.apiKeyInput
        && r.window.availableApps == s.window.availableApps && r.window.appNames == s.window.appNames
        && r.window.selectedApp == s.window.selectedApp && r.window.nextHandle == s.window.nextHandle
        && r.window.selectedAppIndex == 0
    ensures var done := LoginComplete(s.window.client, c);
      done.outcome.success ==>
        && r.window.apiUrl == s.window.apiUrl
        && r.window.client == NewClient(s.window.apiUrl, done.outcome.payload.token)
        && Idle(r.window)
        && ConfigValue(r.config, UserEmailKey, "") == done.outcome.payload.email
        && ConfigValue(r.config, ApiUrlKey, "") == s.window.apiUrl
  {
    var w := s.window;
    var done := LoginComplete(w.client, c);
    var settled := w.(isLoggingIn := false, client := done.client);
    if done.outcome.success then
      var adopted := settled.(isAuthenticated := true, authToken := done.outcome.payload.token,
                              userEmail := done.outcome.payload.email);
      var synced := adopted.(client := SetAuthToken(adopted.client, adopted.authToken));
      var saved := SaveConfig(synced);
      var announced := synced.(statusMessage := "Login successful!", statusType := SuccessMessage);
      Session(Construct(announced, saved), saved)
    else
      Session(settled.(statusMessage := done.outcome.message, statusType := ErrorMessage), s.config)
  }

  /** `OnLogoutClicked`: the identity and app list are cleared, the empty token is saved, and the rebuild leaves the window logged out. */
  function Logout(s: Session): (r: Session)
    ensures r.window.authToken == "" && r.window.userEmail == "" && r.window.apiKeyInput == ""
    ensures r.window.availableApps == [] && r.window.appNames == []
    ensures !r.window.isAuthenticated && r.window.client.authToken == ""
    ensures r.window.statusMessage == "" && r.window.statusType == s.window.statusType
    ensures r.window.selectedApp == s.window.selectedApp && r.window.selectedAppIndex == 0
    ensures r.window.nextHandle == s.window.nextHandle
    ensures r.config.Some? && AuthTokenKey in r.config.value && r.config.value[AuthTokenKey] == ""
    ensures r.window.apiUrl == s.window.apiUrl && r.window.client == NewClient(s.window.apiUrl, "")
    ensures Idle(r.window)
    ensures r.config.Some? && r.config.value.Keys == {AuthTokenKey, UserEmailKey, ApiUrlKey}
    ensures r.config.value[UserEmailKey] == "" && r.config.value[ApiUrlKey] == s.window.apiUrl
  {
    var w := s.window;
    var cleared := w.(isAuthenticated := false, authToken := "", userEmail := "", apiKeyInput := "",
                      availableApps := [], appNames := []);
    var saved := SaveConfig(cleared);
    Session(Construct(cleared.(statusMessage := ""), saved), saved)
  }

  // -------------------------------------------------------------- app list

  /** Fresh name handles for a loaded list, numbered from `next`. */
  function Handles(apps: seq<AppInfo>, next: nat): (names: seq<NameHandle>)
    ensures |names| == |apps|
    ensures forall i :: 0 <= i < |names| ==> names[i].name == apps[i].name && names[i].id == next + i
    ensures forall i, j :: 0 <= i < j < |names| ==> names[i].id < names[j].id
  {
    seq(|apps|, i requires 0 <= i < |apps| => NameHandle(next + i, apps[i].name))
  }

  /** The identity, the key input, the other busy flags and the upload state are those of `w`. */
  predicate KeepsIdentityAndWork(w: Window, r: Window) {
    && r.userEmail == w.userEmail && r.apiKeyInput == w.apiKeyInput
    && r.isLoggingIn == w.isLoggingIn && r.isBuilding == w.isBuilding
    && r.isUploading == w.isUploading && r.isMonitoringBuild == w.isMonitoringBuild
    && r.uploadProgress == w.uploadProgress && r.currentBuildId == w.currentBuildId
  }

  /** The success branch of the list-apps callback: the list, fresh handles, the first app selected, a count or a warning. */
  function AppsListed(w: Window, apps: seq<AppInfo>): (r: Window)
    ensures r.availableApps == apps
    ensures r.appNames == Handles(apps, w.nextHandle) && r.nextHandle == w.nextHandle + |apps|
    ensures |apps| > 0 ==> r.selectedAppIndex == 0 && r.selectedApp == Some(r.appNames[0])
    ensures |apps| == 0 ==> r.selectedAppIndex == w.selectedAppIndex && r.selectedApp == w.selectedApp
    ensures |apps| > 0 ==> r.statusMessage == "Loaded " + IntToDecimal(|apps|) + " app(s)" && r.statusType == SuccessMessage
    ensures |apps| == 0 ==>
      r.statusMessage == NoAppsFound
      && r.statusType == WarningMessage
    ensures r.client == w.client && r.apiUrl == w.apiUrl && r.authToken == w.authToken
    ensures r.isAuthenticated == w.isAuthenticated && r.isLoadingApps == w.isLoadingApps
    ensures KeepsIdentityAndWork(w, r)
  {
    var names := Handles(apps, w.nextHandle);
    if |apps| > 0 then
      w.(availableApps := apps, appNames := names, nextHandle := w.nextHandle + |apps|,
         selectedApp := Some(names[0]), selectedAppIndex := 0,
         statusMessage := "Loaded " + IntToDecimal(|apps|) + " app(s)", statusType := SuccessMessage)
    else
      w.(availableApps := apps, appNames := names, nextHandle := w.nextHandle + |apps|,
         statusMessage := NoAppsFound,
         statusType := WarningMessage)
  }

  /** The list-apps callback: the loading flag is cleared, then the list is shown or the error reported. */
  function LoadAppsCompleted(w: Window, o: Outcome<seq<AppInfo>>): (r: Window)
    ensures !r.isLoadingApps
    ensures r.client == w.client && r.apiUrl == w.apiUrl && r.authToken == w.authToken
    ensures r.isAuthenticated == w.isAuthenticated
    ensures KeepsIdentityAndWork(w, r)
    ensures o.success ==> r == AppsListed(w.(isLoadingApps := false), o.payload)
    ensures !o.success ==>
      r == w.(isLoadingApps := false, statusMessage := o.message, statusType := ErrorMessage)
  {
    var settled := w.(isLoadingApps := false);
    if o.success then AppsListed(settled, o.payload)
    else settled.(statusMessage := o.message, statusType := ErrorMessage)
  }

  /** After a successful load, choosing the i-th option moves the index to i: the fresh handles never collide. */
  lemma LoadedAppsSelectable(w: Window, o: Outcome<seq<AppInfo>>, i: int)
    requires o.success && 0 <= i < |o.payload|
    ensures
      var r := LoadAppsCompleted(w, o);
      AppSelected(r, Some(r.appNames[i])).selectedAppIndex == i
  {
    var r := LoadAppsCompleted(w, o);
    assert r.appNames[i] in r.appNames;
    assert forall j :: 0 <= j < |r.appNames| && j != i ==> r.appNames[j].id != r.appNames[i].id;
  }

  /** `OnLoadAppsClicked`: without a token the client answers at once and no request is sent. */
  function LoadAppsClicked(w: Window): (r: (Window, Option<Request>))
    ensures r.1.Some? <==> w.client.authToken != ""
    ensures r.1.Some? ==> r.0.isLoadingApps && r.1.value.bearer == Some(w.client.authToken)
    ensures r.1.Some? ==> r.0 == w.(isLoadingApps := true, statusMessage := "Loading apps...", statusType := InfoMessage)
    ensures r.1.None? ==> !r.0.isLoadingApps && r.0.statusMessage == NotAuthenticated && r.0.availableApps == w.availableApps
    ensures r.1.None? ==> r.0 == w.(isLoadingApps := false, statusMessage := NotAuthenticated, statusType := ErrorMessage)
  {
    var pending := w.(isLoadingApps := true, statusMessage := "Loading apps...", statusType := InfoMessage);
    match GetAppListBegin(pending.client)
    case Immediate(o) => (LoadAppsCompleted(pending, o), None)
    case Sent(request) => (pending, Some(request))
  }

  /** The first position of `x` in `s`. */
  function FirstIndex<T(==)>(s: seq<T>, x: T): (r: Option<nat>)
    ensures r.Some? <==> x in s
    ensures r.Some? ==> r.value < |s| && s[r.value] == x && forall j :: 0 <= j < r.value ==> s[j] != x
  {
    if |s| == 0 then None
    else if s[0] == x then Some(0)
    else
      match FirstIndex(s[1..], x)
      case Some(i) => Some(i + 1)
      case None => None
  }

  /** `OnAppSelected`: the choice is remembered, and the index moves to its first position among the options, if any. */
  function AppSelected(w: Window, selection: Option<NameHandle>): (r: Window)
    ensures r.selectedApp == selection
    ensures selection.Some? && selection.value in w.appNames ==>
      && 0 <= r.selectedAppIndex < |w.appNames|
      && w.appNames[r.selectedAppIndex] == selection.value
      && forall j :: 0 <= j < r.selectedAppIndex ==> w.appNames[j] != selection.value
    ensures (selection.None? || selection.value !in w.appNames) ==> r.selectedAppIndex == w.selectedAppIndex
    ensures r.(selectedApp := w.selectedApp, selectedAppIndex := w.selectedAppIndex) == w
  {
    var chosen := w.(selectedApp := selection);
    if selection.None? then chosen
    else
      match FirstIndex(w.appNames, selection.value)
      case Some(i) => chosen.(selectedAppIndex := i)
      case None => chosen
  }

  /** The selection names an app of the current list. */
  predicate HasValidSelection(w: Window) {
    |w.availableApps| > 0 && 0 <= w.selectedAppIndex < |w.availableApps|
  }

  /** `OnBuildAndUploadClicked`: only the status line changes, an error without a valid selection. */
  function BuildAndUploadClicked(w: Window): (r: Window)
    ensures !HasValidSelection(w) ==> r == w.(statusMessage := "Please select an app first", statusType := ErrorMessage)
    ensures HasValidSelection(w) ==> r == w.(statusMessage := BuildNotAvailable, statusType := InfoMessage)
  {
    if |w.availableApps| == 0 || w.selectedAppIndex < 0 || w.selectedAppIndex >= |w.availableApps| then
      w.(statusMessage := "Please select an app first", statusType := ErrorMessage)
    else
      w.(statusMessage := BuildNotAvailable, statusType := InfoMessage)
  }

  /** The login button's enable condition. */
  predicate LoginEnabled(w: Window) {
    !w.isLoggingIn && w.apiKeyInput != ""
  }

  /** An enabled login button sends the request and then disables itself until the reply arrives. */
  lemma EnabledLoginSendsOnce(w: Window)
    ensures LoginEnabled(w) ==> LoginClicked(w).1 == Some(Request(Login, None)) && !LoginEnabled(LoginClicked(w).0)
    ensures w.apiKeyInput == "" ==> !LoginEnabled(w) && LoginClicked(w).1.None?
  {
  }

  /** The Load My Apps button's enable condition. */
  predicate LoadAppsEnabled(w: Window) {
    !w.isLoadingApps
  }

  /** The Build & Upload button's enable condition; it omits the upper bound of the index. */
  predicate BuildEnabled(w: Window) {
    !w.isBuilding && !w.isUploading && |w.availableApps| > 0 && w.selectedAppIndex >= 0
  }

  /** The window shows the build tab rather than the login tab. */
  predicate ShowsBuildTab(w: Window) {
    w.isAuthenticated
  }

  // ----------------------------------------------------------- whole window

  /** What the user or the network can do to the window. */
  datatype Event =
    | EditApiKey(text: string)
    | ClickLogin
    | LoginReply(completion: Completion)
    | ClickLogout
    | ClickLoadApps
    | AppsReply(completion: Completion)
    | SelectApp(selection: Option<NameHandle>)
    | ClickBuildAndUpload

  /** One event; user input reaches its handler only when its widget is on the shown tab and enabled. */
  function Apply(s: Session, e: Event): Session {
    match e
    case EditApiKey(text) =>
      if !ShowsBuildTab(s.window) then Session(ApiKeyEdited(s.window, text), s.config) else s
    case ClickLogin =>
      if !ShowsBuildTab(s.window) && LoginEnabled(s.window) then Session(LoginClicked(s.window).0, s.config) else s
    case LoginReply(c) => LoginCompleted(s, c)
    case ClickLogout => if ShowsBuildTab(s.window) then Logout(s) else s
    case ClickLoadApps =>
      if ShowsBuildTab(s.window) && LoadAppsEnabled(s.window) then Session(LoadAppsClicked(s.window).0, s.config) else s
    case AppsReply(c) => Session(LoadAppsCompleted(s.window, GetAppListComplete(c)), s.config)
    case SelectApp(selection) =>
      if ShowsBuildTab(s.window) then Session(AppSelected(s.window, selection), s.config) else s
    case ClickBuildAndUpload =>
      if ShowsBuildTab(s.window) && BuildEnabled(s.window) then Session(BuildAndUploadClicked(s.window), s.config) else s
  }

  /** A login click while a login is outstanding, or from the build tab, changes nothing. */
  lemma PendingLoginIgnoresClicks(s: Session)
    ensures s.window.isLoggingIn || ShowsBuildTab(s.window) ==> Apply(s, ClickLogin) == s
    ensures !ShowsBuildTab(s.window) && LoginEnabled(s.window) ==> Apply(s, ClickLogin).window.isLoggingIn
  {
  }

  function Run(s: Session, events: seq<Event>): Session
    decreases |events|
  {
    if |events| == 0 then s else Run(Apply(s, events[0]), events[1..])
  }

  /**
   * The invariant of every reachable window: app names mirror the app list,
   * a non-empty list has its index in range, the client agrees with the
   * window's token and URL and has no upload in flight, and an
   * authenticated window has a token.
   */
  ghost predicate Consistent(w: Window) {
    && |w.appNames| == |w.availableApps|
    && (forall i :: 0 <= i < |w.appNames| ==> w.appNames[i].name == w.availableApps[i].name)
    && (|w.availableApps| > 0 ==> 0 <= w.selectedAppIndex < |w.availableApps|)
    && w.client == NewClient(w.apiUrl, w.authToken)
    && (w.isAuthenticated ==> w.authToken != "")
  }

  lemma OpenConsistent(cfg: Config)
    ensures Consistent(Open(cfg))
  {
  }

  lemma LoginCompletedConsistent(s: Session, c: Completion)
    requires Consistent(s.window)
    ensures Consistent(LoginCompleted(s, c).window)
  {
    var done := LoginComplete(s.window.client, c);
    if !done.outcome.success {
      assert done.client == s.window.client;
    }
  }

  lemma LoadAppsCompletedConsistent(w: Window, o: Outcome<seq<AppInfo>>)
    requires Consistent(w)
    ensures Consistent(LoadAppsCompleted(w, o))
  {
    var r := LoadAppsCompleted(w, o);
    if o.success {
      assert r.availableApps == o.payload && |r.appNames| == |o.payload|;
      if |o.payload| == 0 {
        assert |r.availableApps| == 0;
      } else {
        assert r.selectedAppIndex == 0;
      }
    } else {
      assert r.availableApps == w.availableApps && r.appNames == w.appNames;
      assert r.selectedAppIndex == w.selectedAppIndex;
    }
  }

  lemma LoadAppsClickedConsistent(w: Window)
    requires Consistent(w)
    ensures Consistent(LoadAppsClicked(w).0)
  {
    var pending := w.(isLoadingApps := true, statusMessage := "Loading apps...", statusType := InfoMessage);
    match GetAppListBegin(pending.client)
    case Immediate(o) => LoadAppsCompletedConsistent(pending, o);
    case Sent(_) =>
  }

  lemma AppSelectedConsistent(w: Window, selection: Option<NameHandle>)
    requires Consistent(w)
    ensures Consistent(AppSelected(w, selection))
  {
  }

  lemma ApplyConsistent(s: Session, e: Event)
    requires Consistent(s.window)
    ensures Consistent(Apply(s, e).window)
  {
    match e
    case EditApiKey(_) =>
    case ClickLogin =>
    case LoginReply(c) => LoginCompletedConsistent(s, c);
    case ClickLogout =>
    case ClickLoadApps => LoadAppsClickedConsistent(s.window);
    case AppsReply(c) => LoadAppsCompletedConsistent(s.window, GetAppListComplete(c));
    case SelectApp(selection) => AppSelectedConsistent(s.window, selection);
    case ClickBuildAndUpload =>
  }

  lemma {:induction false} RunConsistent(s: Session, events: seq<Event>)
    requires Consistent(s.window)
    ensures Consistent(Run(s, events).window)
    decreases |events|
  {
    if |events| > 0 {
      ApplyConsistent(s, events[0]);
      RunConsistent(Apply(s, events[0]), events[1..]);
    }
  }

  /** In every reachable window an enabled Build & Upload button is never refused, although its guard omits the upper bound. */
  lemma EnabledBuildIsAccepted(cfg: Config, events: seq<Event>)
    ensures var w := Run(Session(Open(cfg), cfg), events).window;
      BuildEnabled(w) ==> BuildAndUploadClicked(w).statusMessage == BuildNotAvailable
  {
    OpenConsistent(cfg);
    RunConsistent(Session(Open(cfg), cfg), events);
  }

  /** Every reachable window that shows the build tab holds a token its client will send. */
  lemma AuthenticatedWindowsHaveToken(cfg: Config, events: seq<Event>)
    ensures var w := Run(Session(Open(cfg), cfg), events).window;
      ShowsBuildTab(w) ==> w.client.authToken != "" && GetAppListBegin(w.client).Sent?
  {
    OpenConsistent(cfg);
    RunConsistent(Session(Open(cfg), cfg), events);
  }
}

=== FILE: Records.dfy ===
/**
 * The payload records the client hands to its callers, and how each is
 * filled from a validated result object. A field that is absent (or of
 * another kind) keeps the record's initial value.
 */
module Records {
  import opened Wrappers
  import opened Json

  datatype LoginResponse = LoginResponse(
    id: string, username: string, email: string, token: string,
    roles: seq<string>, planName: string)

  datatype AppInfo = AppInfo(
    id: int, name: string, description: string, buildCount: int, isOwnedByUser: bool)

  datatype CanUploadResponse = CanUploadResponse(
    canUpload: bool, fileSizeBytes: int, uncompressedSizeBytes: int, planName: string,
    maxCompressedSizeGB: int, maxUncompressedSizeGB: int)

  datatype StartUploadResponse = StartUploadResponse(
    appBuildId: int, uploadUrl: string, key: string, finalUrl: string)

  datatype BuildStatusResponse = BuildStatusResponse(
    appBuildId: int, appId: int, status: string, fileName: string, buildNotes: string,
    errorMessage: string, fileSize: int, compressedFileSize: int, stageProgress: int)

  /**
   * Value-initialised records: what `T()` yields, all numbers zero, flags
   * false, strings empty. A record declared as a plain local (`T x;`) gets
   * empty strings and lists but leaves its numbers and flags uninitialised;
   * the `...AsWritten` readers below take that prior storage as a parameter.
   */
  const EmptyLogin := LoginResponse("", "", "", "", [], "")
  const EmptyApp := AppInfo(0, "", "", 0, false)
  const EmptyCanUpload := CanUploadResponse(false, 0, 0, "", 0, 0)
  const EmptyStartUpload := StartUploadResponse(0, "", "", "")
  const EmptyBuildStatus := BuildStatusResponse(0, 0, "", "", "", "", 0, 0, 0)

  /** The identity fields of a login result; roles and plan are read only once the token is known to be present. */
  function LoginHead(result: Object): (r: LoginResponse)
    ensures r.id == GetString(result, "id").GetOr("")
    ensures r.username == GetString(result, "username").GetOr("")
    ensures r.email == GetString(result, "email").GetOr("")
    ensures r.token == GetString(result, "token").GetOr("")
    ensures r.token != "" <==> Fits(result, "token", StringKind) && result["token"].str != ""
    ensures r.roles == [] && r.planName == ""
  {
    EmptyLogin.(
      id := GetString(result, "id").GetOr(""),
      username := GetString(result, "username").GetOr(""),
      email := GetString(result, "email").GetOr(""),
      token := GetString(result, "token").GetOr(""))
  }

  /** Every role entry in order, each read with `AsString`. */
  function RolesOf(result: Object): (roles: seq<string>)
    ensures Fits(result, "roles", ArrayKind) ==>
      |roles| == |result["roles"].items|
      && forall i :: 0 <= i < |roles| ==> roles[i] == AsString(result["roles"].items[i])
    ensures !Fits(result, "roles", ArrayKind) ==> roles == []
  {
    match GetArray(result, "roles")
    case Some(items) => seq(|items|, i requires 0 <= i < |items| => AsString(items[i]))
    case None => []
  }

  /** The result holds an object `subscription` holding an object `plan` holding a string `name`. */
  predicate HasPlanName(result: Object) {
    && Fits(result, "subscription", ObjectKind)
    && Fits(result["subscription"].fields, "plan", ObjectKind)
    && Fits(result["subscription"].fields["plan"].fields, "name", StringKind)
  }

  /** `subscription.plan.name`, empty unless every step of the path is present. */
  function PlanNameOf(result: Object): (name: string)
    ensures HasPlanName(result) ==> name == result["subscription"].fields["plan"].fields["name"].str
    ensures !HasPlanName(result) ==> name == ""
  {
    match GetObject(result, "subscription")
    case Some(subscription) =>
      (match GetObject(subscription, "plan")
       case Some(plan) => GetString(plan, "name").GetOr("")
       case None => "")
    case None => ""
  }

  /** The complete login record: the identity fields, the roles and the plan name. */
  function LoginFields(result: Object): (r: LoginResponse)
    ensures r.(roles := [], planName := "") == LoginHead(result)
    ensures r.roles == RolesOf(result)
    ensures r.planName == PlanNameOf(result)
  {
    LoginHead(result).(roles := RolesOf(result), planName := PlanNameOf(result))
  }

  /** One app entry as the source reads it into a fresh `FGLCAppInfo AppInfo;`: absent scalars keep `storage`. */
  function AppInfoOfAsWritten(app: Object, storage: AppInfo): (r: AppInfo)
    ensures r.id == GetNumber(app, "id").GetOr(storage.id)
    ensures r.name == GetString(app, "name").GetOr("")
    ensures r.description == GetString(app, "description").GetOr("")
    ensures r.buildCount == GetNumber(app, "buildCount").GetOr(storage.buildCount)
    ensures r.isOwnedByUser == GetBool(app, "isOwnedByUser").GetOr(storage.isOwnedByUser)
  {
    AppInfo(
      GetNumber(app, "id").GetOr(storage.id),
      GetString(app, "name").GetOr(""),
      GetString(app, "description").GetOr(""),
      GetNumber(app, "buildCount").GetOr(storage.buildCount),
      GetBool(app, "isOwnedByUser").GetOr(storage.isOwnedByUser))
  }

  /** As written, an app entry without `id` reports whatever the storage held. */
  lemma AppInfoAsWrittenReadsStorage()
    ensures AppInfoOfAsWritten(map["name" := JString("game")], EmptyApp).id
         != AppInfoOfAsWritten(map["name" := JString("game")], EmptyApp.(id := 7)).id
  {
  }

  /** One app entry with the record value-initialised. */
  function AppInfoOf(app: Object): AppInfo {
    AppInfoOfAsWritten(app, EmptyApp)
  }

  /** The entry carries every integer and boolean field of an app. */
  predicate AppCarriesEveryScalar(app: Object) {
    Fits(app, "id", NumberKind) && Fits(app, "buildCount", NumberKind) && Fits(app, "isOwnedByUser", BoolKind)
  }

  /** Corrected: an app depends on its entry alone, absent scalars reading as zero or false; with every scalar present it agrees with the as-written reading. */
  lemma AppInfoFromEntryAlone(app: Object, storage: AppInfo)
    ensures AppInfoOf(app).id == (if Fits(app, "id", NumberKind) then app["id"].n else 0)
    ensures AppInfoOf(app).buildCount == (if Fits(app, "buildCount", NumberKind) then app["buildCount"].n else 0)
    ensures AppInfoOf(app).isOwnedByUser <==> "isOwnedByUser" in app && app["isOwnedByUser"] == JBool(true)
    ensures AppCarriesEveryScalar(app) ==> AppInfoOf(app) == AppInfoOfAsWritten(app, storage)
  {
  }

  /** The number of object entries of a JSON array. */
  function CountObjects(items: seq<Json>): nat {
    if |items| == 0 then 0
    else CountObjects(items[..|items| - 1]) + (if items[|items| - 1].JObject? then 1 else 0)
  }

  /**
   * The app list of a result array: one record per object entry, in order;
   * entries that are not objects are skipped. The object at position `i` is
   * the app at position "number of objects before `i`".
   */
  function ParseApps(items: seq<Json>): (apps: seq<AppInfo>)
    ensures |apps| == CountObjects(items)
    ensures forall i :: 0 <= i < |items| && items[i].JObject? ==>
      CountObjects(items[..i]) < |apps| && apps[CountObjects(items[..i])] == AppInfoOf(items[i].fields)
    ensures (forall i :: 0 <= i < |items| ==> items[i].JObject?) ==>
      |apps| == |items| && forall i :: 0 <= i < |apps| ==> apps[i] == AppInfoOf(items[i].fields)
  {
    if |items| == 0 then []
    else
      var init := items[..|items| - 1];
      var prefix := ParseApps(init);
      var last := items[|items| - 1];
      var apps := if last.JObject? then prefix + [AppInfoOf(last.fields)] else prefix;
      assert forall i :: 0 <= i < |items| && items[i].JObject? ==>
        CountObjects(items[..i]) < |apps| && apps[CountObjects(items[..i])] == AppInfoOf(items[i].fields)
      by {
        forall i | 0 <= i < |items| && items[i].JObject?
          ensures CountObjects(items[..i]) < |apps| && apps[CountObjects(items[..i])] == AppInfoOf(items[i].fields)
        {
          if i < |init| {
            assert init[..i] == items[..i];
          } else {
            assert items[..i] == init;
          }
        }
      }
      assert (forall i :: 0 <= i < |items| ==> items[i].JObject?) ==>
        |apps| == |items| && forall i :: 0 <= i < |apps| ==> apps[i] == AppInfoOf(items[i].fields)
      by {
        if forall i :: 0 <= i < |items| ==> items[i].JObject? {
          AllObjectsCount(items);
          forall i | 0 <= i < |apps| ensures apps[i] == AppInfoOf(items[i].fields) {
            AllObjectsCount(items[..i]);
          }
        }
      }
      apps
  }

  /** An array of objects only has as many objects as entries. */
  lemma {:induction false} AllObjectsCount(items: seq<Json>)
    ensures (forall i :: 0 <= i < |items| ==> items[i].JObject?) ==> CountObjects(items) == |items|
  {
    if |items| > 0 {
      AllObjectsCount(items[..|items| - 1]);
    }
  }

  /** The `apps` array of a list-apps result; an absent array is an empty list. */
  function AppsOf(result: Object): seq<AppInfo> {
    match GetArray(result, "apps")
    case Some(items) => ParseApps(items)
    case None => []
  }

  /**
   * The quota decision as the source fills it: the record is a
   * default-initialised local, so each integer or boolean field the result
   * lacks keeps whatever `storage` held.
   */
  function CanUploadFieldsAsWritten(result: Object, storage: CanUploadResponse): (r: CanUploadResponse)
    ensures !Fits(result, "canUpload", BoolKind) ==> r.canUpload == storage.canUpload
    ensures Fits(result, "canUpload", BoolKind) ==> r.canUpload == result["canUpload"].b
    ensures r.fileSizeBytes == GetNumber(result, "fileSizeBytes").GetOr(storage.fileSizeBytes)
    ensures r.uncompressedSizeBytes == GetNumber(result, "uncompressedSizeBytes").GetOr(storage.uncompressedSizeBytes)
    ensures r.planName == GetString(result, "planName").GetOr("")
    ensures r.maxCompressedSizeGB == GetNumber(result, "maxCompressedSizeGB").GetOr(storage.maxCompressedSizeGB)
    ensures r.maxUncompressedSizeGB == GetNumber(result, "maxUncompressedSizeGB").GetOr(storage.maxUncompressedSizeGB)
  {
    CanUploadResponse(
      GetBool(result, "canUpload").GetOr(storage.canUpload),
      GetNumber(result, "fileSizeBytes").GetOr(storage.fileSizeBytes),
      GetNumber(result, "uncompressedSizeBytes").GetOr(storage.uncompressedSizeBytes),
      GetString(result, "planName").GetOr(""),
      GetNumber(result, "maxCompressedSizeGB").GetOr(storage.maxCompressedSizeGB),
      GetNumber(result, "maxUncompressedSizeGB").GetOr(storage.maxUncompressedSizeGB))
  }

  /** The result carries every integer and boolean field of the quota record. */
  predicate CanUploadCarriesEveryScalar(result: Object) {
    && Fits(result, "canUpload", BoolKind)
    && Fits(result, "fileSizeBytes", NumberKind)
    && Fits(result, "uncompressedSizeBytes", NumberKind)
    && Fits(result, "maxCompressedSizeGB", NumberKind)
    && Fits(result, "maxUncompressedSizeGB", NumberKind)
  }

  /** The quota decision with the record value-initialised, as the unauthenticated path already does. */
  function CanUploadFields(result: Object): CanUploadResponse {
    CanUploadFieldsAsWritten(result, EmptyCanUpload)
  }

  /** The upload ticket as the source fills it: an absent `appBuildId` keeps `storage`. */
  function StartUploadFieldsAsWritten(result: Object, storage: StartUploadResponse): (r: StartUploadResponse)
    ensures r.appBuildId == GetNumber(result, "appBuildId").GetOr(storage.appBuildId)
    ensures r.uploadUrl == GetString(result, "uploadUrl").GetOr("")
    ensures r.key == GetString(result, "key").GetOr("")
    ensures r.finalUrl == GetString(result, "finalUrl").GetOr("")
  {
    StartUploadResponse(
      GetNumber(result, "appBuildId").GetOr(storage.appBuildId),
      GetString(result, "uploadUrl").GetOr(""),
      GetString(result, "key").GetOr(""),
      GetString(result, "finalUrl").GetOr(""))
  }

  /** The upload ticket with the record value-initialised. */
  function StartUploadFields(result: Object): StartUploadResponse {
    StartUploadFieldsAsWritten(result, EmptyStartUpload)
  }

  /** The build record as the source fills it: absent integers keep `storage`. */
  function BuildStatusFieldsAsWritten(result: Object, storage: BuildStatusResponse): (r: BuildStatusResponse)
    ensures r.appBuildId == GetNumber(result, "appBuildId").GetOr(storage.appBuildId)
    ensures r.appId == GetNumber(result, "appId").GetOr(storage.appId)
    ensures r.status == GetString(result, "status").GetOr("")
    ensures r.fileName == GetString(result, "fileName").GetOr("")
    ensures r.buildNotes == GetString(result, "buildNotes").GetOr("")
    ensures r.errorMessage == GetString(result, "errorMessage").GetOr("")
    ensures r.fileSize == GetNumber(result, "fileSize").GetOr(storage.fileSize)
    ensures r.compressedFileSize == GetNumber(result, "compressedFileSize").GetOr(storage.compressedFileSize)
    ensures r.stageProgress == GetNumber(result, "stageProgress").GetOr(storage.stageProgress)
  {
    BuildStatusResponse(
      GetNumber(result, "appBuildId").GetOr(storage.appBuildId),
      GetNumber(result, "appId").GetOr(storage.appId),
      GetString(result, "status").GetOr(""),
      GetString(result, "fileName").GetOr(""),
      GetString(result, "buildNotes").GetOr(""),
      GetString(result, "errorMessage").GetOr(""),
      GetNumber(result, "fileSize").GetOr(storage.fileSize),
      GetNumber(result, "compressedFileSize").GetOr(storage.compressedFileSize),
      GetNumber(result, "stageProgress").GetOr(storage.stageProgress))
  }

  /** The result carries every integer field of the build record. */
  predicate BuildStatusCarriesEveryScalar(result: Object) {
    && Fits(result, "appBuildId", NumberKind)
    && Fits(result, "appId", NumberKind)
    && Fits(result, "fileSize", NumberKind)
    && Fits(result, "compressedFileSize", NumberKind)
    && Fits(result, "stageProgress", NumberKind)
  }

  /** The build record with the record value-initialised. */
  function BuildStatusFields(result: Object): BuildStatusResponse {
    BuildStatusFieldsAsWritten(result, EmptyBuildStatus)
  }
}

=== FILE: Wrappers.dfy ===
/** Failure-carrying wrappers shared by the other modules. */
module Wrappers {

  /** A value that may be absent: a missing JSON field, a body that did not parse. */
  datatype Option<+T> = None | Some(value: T) {

    /** The carried value, or `default` when there is none. */
    function GetOr(default: T): T {
      match this
      case Some(v) => v
      case None => default
    }
  }

  /** Either a value or an error description. */
  datatype Result<+T, +E> = Success(value: T) | Failure(error: E)
}
